=== FILE: README.md ===
# gitsynth commit workflow, modelled in Dafny

gitsynth writes Conventional Commit messages for staged git changes. Its core is a
six-node workflow graph in `gitsynth/core/commit_agent.py`:

1. `get_diff` puts the staged diff (or the git error's text) into the chat log;
2. `analyze` parses the diff into per-file change records (`parse_git_diff`), cuts each
   file's section out of the diff text (`extract_file_diff`), asks the model for a purpose
   per file (falling back to `Changes in <path>`), then asks for an overall summary, change
   type and breaking flag;
3. `generate_message` derives candidate scopes from the file paths, asks the model for a
   structured commit and renders it as `type(scope)!: description` plus body and footer,
   with the breaking flag always taken from the analysis;
4. `check_quality` asks for a yes/no verdict, records it in the message history, and
   either accepts the message (valid, or five attempts already spent) or counts one more
   attempt and routes to
5. `improve_message`, which records the failure, takes the model's rewrite (stripped of
   surrounding whitespace) and goes back to `check_quality`;
6. `generate_changelog` appends a Markdown entry for the accepted message to the
   changelog file, and the run ends.

The model is a set of pure functions over immutable data, one module per concern:

| module | file | what it holds |
|---|---|---|
| `Wrappers` | `wrappers.dfy` | `Option`, `Result` |
| `Text` | `text.dfy` | Python's `split`, `'sep'.join`, `startswith`, `in`, `lstrip(chars)`, `rstrip`, `strip()` |
| `Order` | `order.dfy` | Python's string order, strictly sorted sequences, sorted insertion |
| `Models` | `models.dfy` | the pydantic records: file change, hunk info, analysis, commit, commit types |
| `DiffParser` | `diff_parser.dfy` | `parse_git_diff` over the diff library's patched-file records |
| `FileDiff` | `file_diff.dfy` | `extract_file_diff`, both as a loop and as a slice of the line list |
| `Analysis` | `analysis.dfy` | the `analyze` node: per-file purposes and the summary |
| `CommitMessage` | `commit_message.dfy` | scope detection, message rendering and its decoder, the `generate_message` node |
| `Changelog` | `changelog.dfy` | the changelog entry template and the append to the file |
| `Workflow` | `workflow.dfy` | the graph as a state machine, its invariant, termination and run-level properties |

Every call to the language model is an oracle: a function-valued field of
`Workflow.Environment` (or a parameter of the node's function) that maps what the node
sends to what comes back. A reply that does not parse is `None`. For the per-file purpose
this selects the fallback text; for the summary, the commit and the verdict the source
has no `try`, so the run stops, modelled as the node `Aborted(failure)`. The verdict
oracle is indexed by how many quality checks have run, and the rewrite oracle by the
attempt count, so a run is a function of its environment.

Behaviour kept exactly as written:

- Paths are cleaned with `lstrip('b/')` and `lstrip('a/')`, which strip a *set* of
  characters, not a prefix: `b/build/x` becomes `uild/x` and `a/app.py` becomes `pp.py`.
  `DiffParser.PathStripLosesLeadingB` and `DiffParser.OldPathStripLosesLeadingA` show it.
- The scope candidate of a path is its *second* `/`-separated part (`parts[1]`), not its
  first directory: `src/api/x.py` gives `api`, `docs/readme.md` gives `readme.md`.
- The scope text is `", ".join(sorted(dirs)) or "none detected"`, so a path whose only
  candidate is empty (`x/`, `a//b`) also yields `none detected`.
- `attempts` is counted in `check_quality` on a rejection; `improve_message` leaves it.
  Acceptance is forced once `attempts >= 5`, so a run checks quality at most six times.
- `old_path` is set for deleted files as well as renamed ones. The types `MODE_CHANGED`,
  `SUBMODULE` and `CONFLICT` are declared but never produced.
- An empty staged diff is a git error (`gitsynth/core/git.py:38-39`), which `get_diff`
  turns into the "Error getting git diff: " message (`gitsynth/core/commit_agent.py:119-123`);
  the run goes on and `analyze` reads that message. The patched-file records are part of
  the environment and are left unconstrained in that case.

The repository's own text says otherwise on three of these points, and the model follows
the code each time:

- `gitsynth/core/commit_agent.py:396` comments the scope line with "take the first
  folder", but the code adds `parts[1]`, the second segment.
- `gitsynth/core/ollama_handler.py:19-21` describes `old_path` as the original path of a
  renamed file; `parse_git_diff` also fills it for deleted files.
- `gitsynth/core/ollama_handler.py:68-76` asks for `MODE_CHANGED`, binary, `SUBMODULE` and
  `CONFLICT` detection; `parse_git_diff` detects only added, removed, renamed, binary and
  modified files.

## Model

| member | source | states |
|---|---|---|
| Text.Split | gitsynth/core/commit_agent.py:209 | `split('\n')` always yields at least one piece and no piece holds the separator |
| Text.JoinSplit | gitsynth/core/commit_agent.py:209-222 | joining the pieces of a split with the separator gives back the original text |
| Text.SplitJoin | gitsynth/core/commit_agent.py:222 | splitting a join of separator-free pieces gives back exactly those pieces |
| Text.SplitSingleIff | gitsynth/core/commit_agent.py:394-395 | a string splits into more than one part exactly when it holds the separator |
| Text.LStrip | gitsynth/core/commit_agent.py:145 | `lstrip(chars)` returns a suffix whose first character is outside the set, having removed only characters of the set |
| Text.LStripUnique | gitsynth/core/commit_agent.py:145 | those three facts determine the left-strip: any string meeting them is `LStrip`'s result |
| Text.Strip | gitsynth/core/commit_agent.py:586 | `strip()` returns a contiguous piece of the text, everything cut on either side is whitespace, and a non-empty result starts and ends with non-whitespace |
| Order.LessIrreflexive | gitsynth/core/commit_agent.py:428 | no string sorts before itself |
| Order.LessTransitive | gitsynth/core/commit_agent.py:428 | Python's string order is transitive |
| Order.LessConnected | gitsynth/core/commit_agent.py:428 | any two different strings are ordered one way or the other |
| Order.InsertSorted | gitsynth/core/commit_agent.py:392-396 | adding an element to a sorted set of distinct strings keeps it strictly sorted and adds exactly that element |
| Order.StrictlySortedUnique | gitsynth/core/commit_agent.py:428 | two strictly sorted sequences with the same members are equal, so `sorted(set)` is determined by the set |
| Models.ParseCommitType | gitsynth/core/commit_agent.py:56 | a type name is accepted exactly when it is one of the eight literals, and the accepted type renders back to that name |
| DiffParser.CountKind | gitsynth/core/commit_agent.py:175-176 | a count of added or removed lines never exceeds the hunk's line count |
| DiffParser.KindsPartitionLines | gitsynth/core/commit_agent.py:175-187 | added, removed and context lines together account for every line of a hunk |
| DiffParser.CountKindConcat | gitsynth/core/commit_agent.py:177-178 | counting over two line lists is the sum of the two counts |
| DiffParser.HunkStats | gitsynth/core/commit_agent.py:180-188 | a hunk record copies the four ranges, its added and removed lines are the counts of added and removed lines, it counts every line as modified, and added plus removed never exceed that |
| DiffParser.Classify | gitsynth/core/commit_agent.py:147-167 | the change type follows the flag precedence added, removed, renamed, binary, else modified, and is never mode-changed, submodule or conflict |
| DiffParser.HunkSumsCountBody | gitsynth/core/commit_agent.py:171-178 | the per-hunk added and removed counts sum to the counts over all body lines of the file |
| DiffParser.ParseFile | gitsynth/core/commit_agent.py:143-203 | a file record has the left-stripped path, an old path exactly for deleted and renamed files, one hunk record per hunk, totals equal to the hunk sums and an empty purpose |
| DiffParser.ParseGitDiff | gitsynth/core/commit_agent.py:133-205 | one change record per patched file, in order |
| DiffParser.PathStripLosesLeadingB | gitsynth/core/commit_agent.py:145 | the library path `build/x` (the file's `b/build/x`) comes out as `uild/x` |
| DiffParser.OldPathStripLosesLeadingA | gitsynth/core/commit_agent.py:154 | the old path `a/app.py` comes out as `pp.py` |
| DiffParser.ParsedPathShape | gitsynth/core/commit_agent.py:145 | a parsed path never starts with `b` or `/` and is the left-strip of the patched path |
| FileDiff.FirstOpen | gitsynth/core/commit_agent.py:213-215 | finds the first header line naming the file, and no earlier line is one |
| FileDiff.FirstClose | gitsynth/core/commit_agent.py:216-217 | finds the first later header line that does not name the file; every line before it is a non-header or a header that names the file |
| FileDiff.ScanFileDiff | gitsynth/core/commit_agent.py:207-222 | the flag-and-break loop returns the lines from the first header naming the file up to the next header that does not name the file (a later header that names it, such as `x2` for path `x`, is kept), joined by newlines |
| FileDiff.ExtractFileDiff | gitsynth/core/commit_agent.py:207-222 | the extracted diff is empty exactly when no header line names the file, and it is always a contiguous piece of the full diff |
| Analysis.AnalyzeFile | gitsynth/core/commit_agent.py:285-312 | analysing a file changes only its purpose, which is the model's answer or `Changes in <path>` |
| Analysis.AnalyzeFiles | gitsynth/core/commit_agent.py:246-312 | one analysed record per parsed record, in order, equal to it except for the purpose |
| Analysis.AnalysisOnlyAddsPurposes | gitsynth/core/commit_agent.py:289-311 | clearing the purposes of the analysed files gives back exactly the parsed diff |
| Analysis.FallbackNamesFile | gitsynth/core/commit_agent.py:300-311 | when the purpose reply fails, the purpose is `Changes in ` followed by the path |
| Analysis.Summarize | gitsynth/core/commit_agent.py:356-362 | the analysis is built exactly when the summary reply parses and names a known type; it carries the reply's fields and the analysed files; a missing reply is a malformed-summary failure |
| Analysis.Analyze | gitsynth/core/commit_agent.py:243-362 | a successful analysis has one file per patched file, each equal to its parsed record except for the purpose |
| CommitMessage.ScopeCandidateIffSlash | gitsynth/core/commit_agent.py:394-396 | a path yields a scope candidate exactly when it contains `/` |
| CommitMessage.ScopeCandidateIsSecondSegment | gitsynth/core/commit_agent.py:394-396 | the candidate is the text between the first and the second `/` |
| CommitMessage.SortedScopes | gitsynth/core/commit_agent.py:391-428 | the scopes are strictly sorted and are exactly the candidates of the paths |
| CommitMessage.SortedScopesIgnoresOrder | gitsynth/core/commit_agent.py:391-428 | path lists with the same candidates give the same scope list, whatever their order or repetitions |
| CommitMessage.ScopesText | gitsynth/core/commit_agent.py:428 | the scope text is `none detected` when every candidate is empty, and otherwise the non-empty comma-joined sorted list |
| CommitMessage.Render | gitsynth/core/commit_agent.py:441-452 | the message opens with the type name, and reading its header back yields the type, the scope, the breaking mark and the rest of the message; the reader rejects an empty `()`, so a scope-less commit's header has no parentheses |
| CommitMessage.DecodeDetermines | gitsynth/core/commit_agent.py:441-447 | a header that reads back fixes its text: the type name, `(scope)` only for a non-empty scope, `!` only when breaking, then `: ` and the rest |
| CommitMessage.RenderDetermined | gitsynth/core/commit_agent.py:441-452 | for a scope without `)`, the only text that reads back as a commit's parts is its rendering |
| CommitMessage.DecodeRendered | gitsynth/core/commit_agent.py:441-447 | for a scope without `)`, a header built from type, scope part, `!` part and description reads back as those four parts |
| CommitMessage.CommitFrom | gitsynth/core/commit_agent.py:436-439 | the commit has the reply's type, scope, description, body and footer, and its breaking flag is the analysis' flag, whatever the reply said |
| CommitMessage.GenerateMessage | gitsynth/core/commit_agent.py:433-452 | a message is produced exactly when the reply parses and names a known type |
| CommitMessage.GeneratedHeaderFollowsAnalysis | gitsynth/core/commit_agent.py:436-447 | the generated header carries the reply's type and scope, a `!` exactly when the analysis is breaking, and after `: ` the reply's description followed by its non-empty body and footer |
| Changelog.Bullets | gitsynth/core/commit_agent.py:622 | one bullet per file, in order, naming its path and purpose |
| Changelog.Append | gitsynth/core/commit_agent.py:629-630 | appending keeps the old content as a prefix and adds the entry between newlines |
| Changelog.AppendAll | gitsynth/core/commit_agent.py:629-630 | successive runs appending to the one changelog file (each run appends once, see Workflow.RunChangelog) leave the old content as a prefix followed by every entry between newlines, in order |
| Changelog.Entry | gitsynth/core/commit_agent.py:616-626 | the entry opens with the message as a level-two heading, and its lines are the heading, a blank, the summary section, a blank, the files section, a blank, the type line, the banner line and an empty last line |
| Changelog.BulletBlockLines | gitsynth/core/commit_agent.py:621-622 | with single-line paths and purposes the files section splits back into one bullet per file, and with no files it is one empty line |
| Changelog.BannerIffBreaking | gitsynth/core/commit_agent.py:625 | the entry ends with the breaking-changes banner exactly when the analysis is breaking |
| Workflow.Init | gitsynth/core/commit_agent.py:676-681 | a run starts at `get_diff` with no attempts, no analysis, no verdict, no final message, an empty history, no checks and the changelog as found |
| Workflow.Route | gitsynth/core/commit_agent.py:725-732 | the edge out of `check_quality` goes to improvement exactly for `improve_message` and to the changelog exactly for `generate_changelog`; any other label stops the run |
| Workflow.GetDiffStep | gitsynth/core/commit_agent.py:110-123 | the diff message is the staged-changes intro plus the diff, or the git-error intro plus the error's text, and nothing else in the state changes but the route to analysis |
| Workflow.AnalyzeStep | gitsynth/core/commit_agent.py:243-368 | a successful analysis is stored in the state and the run moves to message generation; a failed one stops the run on its failure; nothing else changes |
| Workflow.GenerateStep | gitsynth/core/commit_agent.py:378-460 | a generated message becomes the candidate and the run moves to the quality check; a missing analysis or a failed generation stops the run; nothing else changes |
| Workflow.DiffMessageShowsOutcome | gitsynth/core/commit_agent.py:115-122 | the diff message opens with the staged-changes intro exactly when git succeeded, and then the rest of it is the diff |
| Workflow.CheckStep | gitsynth/core/commit_agent.py:464-540 | every check is counted; an unreadable verdict stops the run with history and attempts untouched; a readable one records the verdict and routes to the changelog with the message as final, or to improvement with one more attempt; the checked message, analysis, diff and changelog are kept and the verdict is stored for the improvement step |
| Workflow.Judge | gitsynth/core/commit_agent.py:517-538 | the verdict is recorded as a success or failure record for the current message; on a valid verdict or a spent budget the message becomes final, a final record with reason valid or max-attempts-reached follows and `attempts` is unchanged; otherwise one more attempt and the route to improvement |
| Workflow.ImproveStep | gitsynth/core/commit_agent.py:542-601 | improving adds a failed record for the old message and an improved record for the new one, keeps `attempts`, makes the whitespace-stripped rewrite the new candidate, leaves analysis, final message and check count alone and routes back to the quality check |
| Workflow.ChangelogStep | gitsynth/core/commit_agent.py:605-630 | with an analysis the run ends and the changelog grows by exactly the framed entry for the final message; without one the run stops with the changelog untouched; history, attempts and final message never change |
| Workflow.Step | gitsynth/core/commit_agent.py:716-734 | every node only extends the message history, only the changelog node touches the changelog and only by growing it, and only the quality node counts a check |
| Workflow.CheckPreservesInv | gitsynth/core/commit_agent.py:464-540 | the quality check keeps the attempt budget, the history length per attempt and the final-record facts |
| Workflow.StepPreservesInv | gitsynth/core/commit_agent.py:716-734 | every node of the graph keeps the run invariant |
| Workflow.StepLowersRank | gitsynth/core/commit_agent.py:716-734 | every node before the end lowers a bounded measure, so no run loops forever |
| Workflow.Run | gitsynth/core/commit_agent.py:676-681 | every run ends, at the end node or on a failure, with at most five attempts and six quality checks |
| Workflow.CheckVisits | gitsynth/core/commit_agent.py:464-540 | the number of quality checks still to come plus those done is the run's final check count |
| Workflow.QualityLoopBounded | gitsynth/core/commit_agent.py:525-538 | from the start, the quality check runs at most six times and `attempts` never exceeds five |
| Workflow.ForcedAcceptance | gitsynth/core/commit_agent.py:525-534 | with five attempts spent any verdict leads to the changelog with the current message as final |
| Workflow.RejectionRetries | gitsynth/core/commit_agent.py:536-538 | a rejection with budget left leads to improvement with one more attempt |
| Workflow.RunWritesChangelogOnce | gitsynth/core/commit_agent.py:628-630 | from any reachable state the changelog is the original until the changelog node, then the original plus one entry |
| Workflow.RunChangelog | gitsynth/core/commit_agent.py:628-630 | a finished run appended exactly one entry for the final message and analysis; a failed run left the changelog untouched |
| Workflow.WellFormedRunsFinish | gitsynth/core/commit_agent.py:716-734 | when every structured reply parses, a run always reaches the end node |

## Left out

- The language model itself, its prompts' wording and the JSON schemas sent with them: each call is an oracle from what the node sends to the parsed reply.
- The diff library's reading of the diff text: the patched-file records it produces are part of the environment, and how they relate to the text is not modelled. Its own parse error (`PatchSet` raising inside `analyze`, `gitsynth/core/commit_agent.py:138`), which would end the run, is not modelled either; Workflow.WellFormedRunsFinish assumes it does not happen.
- `git.py` (`GitHandler`): the staged diff or the git error's text is part of the environment.
- The chat log `messages`: the state keeps what nodes read back from it (the diff message, the latest candidate, the latest verdict). The analysis' JSON round trip between `analyze` and `generate_message` is taken to be lossless.
- Debug printing, the Rich preview panel and graph visualisation.
- File I/O: the changelog file is its content as a string; opening it for appending is `Changelog.Append`. A failure to open or write the file (`gitsynth/core/commit_agent.py:629-630`) is not modelled; Workflow.RunChangelog and Workflow.WellFormedRunsFinish assume the write succeeds.
- Failures of the model call itself: a raising `_chat_with_format` for a file's purpose (`gitsynth/core/commit_agent.py:270-280`, outside the `try` at 285) or a raising `ollama.chat` (for example the rewrite at 577) is not modelled; only replies that arrive and cannot be read are. Analysis.AnalyzeFiles and Workflow.WellFormedRunsFinish hold for replies that arrive.
- Python's distinct exception types: every fatal parse or validation error becomes one `Failure` value.
- `Workflow.Run`: a run that stops on a failure is modelled as reaching `Aborted`, where the source raises out of the graph.
- CommitMessage.Render: the read-back clause is stated only for scopes without `)`, since a reader cannot tell where such a scope ends.
- CommitMessage.GeneratedHeaderFollowsAnalysis: stated only for scopes without `)`, for the same reason.
- CommitMessage.DecodeRendered: stated only for scopes without `)`, for the same reason; for such a scope the header reader stops at its first `)`.
- Changelog.BulletBlockLines: stated only for paths and purposes without newlines, or for no files; other bullets span several lines of the entry.

=== FILE: analysis.dfy ===
/** The `analyze` step: a purpose for every parsed file (from the model, or a fixed
    fallback when its reply cannot be read), then the overall `GitDiffAnalysis`. */
module Analysis {
  import opened Wrappers
  import opened Models
  import opened FileDiff
  import opened DiffParser

  /** What the per-file prompt is built from. */
  datatype FilePrompt = FilePrompt(
    path: string, changeType: ChangeType, added: nat, removed: nat, diff: string)

  /** The per-file model call: the `purpose` field of its JSON reply, or `None` when the
      reply is not JSON, lacks the field, or the field is not a string. */
  type PurposeOracle = FilePrompt -> Option<string>

  /** The summary reply's fields; `changeType` is still an unchecked name. */
  datatype SummaryReply = SummaryReply(summary: string, changeType: string, breakingChange: bool)

  /** The summary model call; `None` when the reply is not JSON or lacks a field. */
  type SummaryOracle = seq<FileChange> -> Option<SummaryReply>

  function FilePromptFor(fullDiff: string, f: FileChange): FilePrompt
  {
    FilePrompt(f.path, f.changeType, f.addedLines, f.removedLines, ExtractFileDiff(fullDiff, f.path))
  }

  /** The purpose used when the model's reply cannot be read. */
  function FallbackPurpose(path: string): string
  {
    "Changes in " + path
  }

  function PurposeFrom(reply: Option<string>, path: string): string
  {
    match reply
    case Some(p) => p
    case None => FallbackPurpose(path)
  }

  /** One iteration of the per-file loop: a copy of the parsed change with a purpose. */
  function AnalyzeFile(fullDiff: string, f: FileChange, ask: PurposeOracle): (g: FileChange)
    ensures g.(purpose := f.purpose) == f
    ensures g.purpose == PurposeFrom(ask(FilePromptFor(fullDiff, f)), f.path)
  {
    f.(purpose := PurposeFrom(ask(FilePromptFor(fullDiff, f)), f.path))
  }

  /** The per-file loop: same length and order as its input, every field but the
      purpose unchanged, no file skipped whatever the model answers. */
  function AnalyzeFiles(fullDiff: string, parsed: seq<FileChange>, ask: PurposeOracle): (analyzed: seq<FileChange>)
    ensures |analyzed| == |parsed|
    ensures forall i :: 0 <= i < |parsed| ==> analyzed[i].(purpose := parsed[i].purpose) == parsed[i]
    ensures forall i :: 0 <= i < |parsed| ==>
      analyzed[i].purpose == PurposeFrom(ask(FilePromptFor(fullDiff, parsed[i])), parsed[i].path)
  {
    seq(|parsed|, i requires 0 <= i < |parsed| => AnalyzeFile(fullDiff, parsed[i], ask))
  }

  /** Clears every purpose again. */
  function ClearPurposes(files: seq<FileChange>): (r: seq<FileChange>)
    ensures |r| == |files|
    ensures forall i :: 0 <= i < |files| ==> r[i] == files[i].(purpose := "")
  {
    seq(|files|, i requires 0 <= i < |files| => files[i].(purpose := ""))
  }

  /** Analysis only adds purposes: clearing them gives back exactly what the parser made. */
  lemma AnalysisOnlyAddsPurposes(fullDiff: string, patches: seq<PatchedFile>, ask: PurposeOracle)
    ensures ClearPurposes(AnalyzeFiles(fullDiff, ParseGitDiff(patches), ask)) == ParseGitDiff(patches)
  {
    var parsed := ParseGitDiff(patches);
    var analyzed := AnalyzeFiles(fullDiff, parsed, ask);
    assert forall i :: 0 <= i < |parsed| ==> parsed[i].purpose == "";
    assert forall i :: 0 <= i < |parsed| ==> ClearPurposes(analyzed)[i] == parsed[i];
  }

  /** A reply that cannot be read still yields a purpose, and it names the file. */
  lemma FallbackNamesFile(fullDiff: string, f: FileChange, ask: PurposeOracle)
    requires ask(FilePromptFor(fullDiff, f)).None?
    ensures AnalyzeFile(fullDiff, f, ask).purpose == "Changes in " + f.path
  {
  }

  /** Builds the `GitDiffAnalysis` from the summary reply and the analyzed files.
      There is no retry and no default type: an unreadable reply or a type name outside
      the literals ends the run. */
  function Summarize(files: seq<FileChange>, reply: Option<SummaryReply>): (r: Result<DiffAnalysis, Failure>)
    ensures r.Ok? <==> reply.Some? && ParseCommitType(reply.value.changeType).Some?
    ensures r.Ok? ==>
      && r.value.files == files
      && r.value.summary == reply.value.summary
      && CommitTypeName(r.value.changeType) == reply.value.changeType
      && r.value.breakingChange == reply.value.breakingChange
    ensures reply.None? ==> r == Err(MalformedSummary)
  {
    match reply
    case None => Err(MalformedSummary)
    case Some(s) =>
      match ParseCommitType(s.changeType)
      case None => Err(UnknownChangeType(s.changeType))
      case Some(t) => Ok(DiffAnalysis(s.summary, t, files, s.breakingChange))
  }

  /** The whole `analyze` step. */
  function Analyze(fullDiff: string, patches: seq<PatchedFile>, ask: PurposeOracle, summarize: SummaryOracle): (r: Result<DiffAnalysis, Failure>)
    ensures r.Ok? ==> |r.value.files| == |patches|
    ensures r.Ok? ==> forall i :: 0 <= i < |patches| ==>
      r.value.files[i].(purpose := "") == ParseFile(patches[i])
  {
    var files := AnalyzeFiles(fullDiff, ParseGitDiff(patches), ask);
    Summarize(files, summarize(files))
  }
}

=== FILE: changelog.dfy ===
/** The `generate_changelog` step: the Markdown entry for an accepted message and its
    analysis, and the append-only changelog file it is added to. */
module Changelog {
  import opened Text
  import opened Models

  // The heading literals of the entry; the emoji are kept as their code points.
  const SummaryHeading: string := "### \U{1F50D} Summary"
  const FilesHeading: string := "### \U{1F4DD} Changed Files"
  const TypeHeading: string := "### \U{1F504} Type: "
  const BreakingBanner: string := "### \U{26A0}\U{FE0F} BREAKING CHANGES"

  /** `- **path**: purpose` */
  function Bullet(f: FileChange): string
  {
    "- **" + f.path + "**: " + f.purpose
  }

  function Bullets(files: seq<FileChange>): (lines: seq<string>)
    ensures |lines| == |files|
    ensures forall i :: 0 <= i < |files| ==> lines[i] == Bullet(files[i])
  {
    seq(|files|, i requires 0 <= i < |files| => Bullet(files[i]))
  }

  function TypeLine(t: CommitType): string
  {
    TypeHeading + "`" + CommitTypeName(t) + "`"
  }

  /** The banner line, or an empty line for a non-breaking change. */
  function BannerLine(breaking: bool): string
  {
    if breaking then BreakingBanner else ""
  }

  // The `changelog_entry` f-string, block by block (each block ends with its newlines).

  function HeaderBlock(message: string): string
  {
    "## " + message + "\n\n"
  }

  function SummaryBlock(summary: string): string
  {
    SummaryHeading + "\n" + summary + "\n\n"
  }

  function FilesBlock(files: seq<FileChange>): string
  {
    FilesHeading + "\n" + Join(Bullets(files), "\n") + "\n\n"
  }

  function TypeBlock(t: CommitType, breaking: bool): string
  {
    TypeLine(t) + "\n" + BannerLine(breaking) + "\n"
  }

  /** The `changelog_entry` f-string. It opens with the message as a level-two heading,
      and its lines are the message line(s) under `## `, a blank line, the summary
      heading and the summary line(s), a blank line, the files heading and the bullet
      block, a blank line, the type line, the banner line (empty unless the change is
      breaking) and a final empty line. */
  function Entry(message: string, a: DiffAnalysis): (entry: string)
    ensures StartsWith(entry, "## " + message)
    ensures Split(entry, '\n')
      == Split("## " + message, '\n') + ([""]
       + ([SummaryHeading] + (Split(a.summary, '\n') + ([""]
       + ([FilesHeading] + (Split(Join(Bullets(a.files), "\n"), '\n') + ([""]
       + [TypeLine(a.changeType), BannerLine(a.breakingChange), ""])))))))
  {
    var typeBlock := TypeBlock(a.changeType, a.breakingChange);
    var filesOn := FilesBlock(a.files) + typeBlock;
    var summaryOn := SummaryBlock(a.summary) + filesOn;
    HeaderBlockLines(message, summaryOn);
    SummaryBlockLines(a.summary, filesOn);
    FilesBlockLines(a.files, typeBlock);
    TypeBlockLines(a.changeType, a.breakingChange);
    assert HeaderBlock(message) == "## " + message + "\n\n";
    PrefixExtends("## " + message, "\n\n", summaryOn);
    HeaderBlock(message) + summaryOn
  }

  /** The text one write adds: the entry between newlines. */
  function Frame(entry: string): string
  {
    "\n" + entry + "\n"
  }

  /** `f.write(f"\n{changelog_entry}\n")` on a file opened for appending. */
  function Append(content: string, entry: string): (updated: string)
    ensures content <= updated
    ensures updated[|content|..] == "\n" + entry + "\n"
  {
    content + Frame(entry)
  }

  /** The text a sequence of appends adds: each entry between newlines, in order. */
  function Framed(entries: seq<string>): string
    decreases |entries|
  {
    if |entries| == 0 then "" else Frame(entries[0]) + Framed(entries[1..])
  }

  /** Writing several entries in turn never rewrites what was there: the original
      content stays a prefix and the entries follow it in order. */
  function AppendAll(content: string, entries: seq<string>): (updated: string)
    ensures updated == content + Framed(entries)
    ensures content <= updated
    decreases |entries|
  {
    if |entries| == 0 then content
    else
      var first := Append(content, entries[0]);
      var updated := AppendAll(first, entries[1..]);
      assert first + Framed(entries[1..]) == content + (Frame(entries[0]) + Framed(entries[1..]));
      updated
  }

  /** The fixed lines of the template are single lines. */
  lemma FixedLinesHaveNoNewline(t: CommitType, breaking: bool)
    ensures '\n' !in SummaryHeading && '\n' !in FilesHeading
    ensures '\n' !in TypeLine(t) && '\n' !in BannerLine(breaking)
  {
  }

  /** Splitting `x + "\n" + rest` when `x` is a single line. */
  lemma SplitLineOn(x: string, rest: string)
    requires '\n' !in x
    ensures Split(x + "\n" + rest, '\n') == [x] + Split(rest, '\n')
  {
    SplitConcat(x, rest, '\n');
    SplitNoSeparator(x, '\n');
  }

  /** Splitting `x + "\n" + rest` in general. */
  lemma SplitOn(x: string, rest: string)
    ensures Split(x + "\n" + rest, '\n') == Split(x, '\n') + Split(rest, '\n')
  {
    SplitConcat(x, rest, '\n');
  }

  lemma HeaderBlockLines(message: string, rest: string)
    ensures Split(HeaderBlock(message) + rest, '\n')
      == Split("## " + message, '\n') + ([""] + Split(rest, '\n'))
  {
    var head := "## " + message;
    var inner := "" + "\n" + rest;
    assert HeaderBlock(message) + rest == head + "\n" + inner;
    SplitOn(head, inner);
    SplitLineOn("", rest);
  }

  lemma SummaryBlockLines(summary: string, rest: string)
    ensures Split(SummaryBlock(summary) + rest, '\n')
      == [SummaryHeading] + (Split(summary, '\n') + ([""] + Split(rest, '\n')))
  {
    FixedLinesHaveNoNewline(Feat, false);
    var blankOn := "" + "\n" + rest;
    var summaryOn := summary + "\n" + blankOn;
    assert SummaryBlock(summary) + rest == SummaryHeading + "\n" + summaryOn;
    SplitLineOn(SummaryHeading, summaryOn);
    SplitOn(summary, blankOn);
    SplitLineOn("", rest);
  }

  lemma FilesBlockLines(files: seq<FileChange>, rest: string)
    ensures Split(FilesBlock(files) + rest, '\n')
      == [FilesHeading] + (Split(Join(Bullets(files), "\n"), '\n') + ([""] + Split(rest, '\n')))
  {
    FixedLinesHaveNoNewline(Feat, false);
    var block := Join(Bullets(files), "\n");
    var blankOn := "" + "\n" + rest;
    var blockOn := block + "\n" + blankOn;
    assert FilesBlock(files) + rest == FilesHeading + "\n" + blockOn;
    SplitLineOn(FilesHeading, blockOn);
    SplitOn(block, blankOn);
    SplitLineOn("", rest);
  }

  lemma TypeBlockLines(t: CommitType, breaking: bool)
    ensures Split(TypeBlock(t, breaking), '\n') == [TypeLine(t), BannerLine(breaking), ""]
  {
    FixedLinesHaveNoNewline(t, breaking);
    var bannerOn := BannerLine(breaking) + "\n" + "";
    assert TypeBlock(t, breaking) == TypeLine(t) + "\n" + bannerOn;
    SplitLineOn(TypeLine(t), bannerOn);
    SplitLineOn(BannerLine(breaking), "");
  }

  /** With newline-free paths and purposes, the bullet block splits back into exactly
      one bullet per file, in the analysis' order; with no files it is one empty line. */
  lemma BulletBlockLines(files: seq<FileChange>)
    requires forall i :: 0 <= i < |files| ==> '\n' !in files[i].path && '\n' !in files[i].purpose
    ensures Split(Join(Bullets(files), "\n"), '\n') == if |files| == 0 then [""] else Bullets(files)
  {
    if |files| == 0 {
      assert Join(Bullets(files), "\n") == "";
      return;
    }
    var bullets := Bullets(files);
    forall i | 0 <= i < |bullets|
      ensures '\n' !in bullets[i]
    {
      assert bullets[i] == "- **" + files[i].path + "**: " + files[i].purpose;
    }
    SplitJoin(bullets, '\n');
  }

  /** The last `n` characters of a concatenation come from its right part. */
  lemma SuffixOfConcat(x: string, y: string, n: nat)
    requires n <= |y|
    ensures (x + y)[|x + y| - n..] == y[|y| - n..]
  {
  }

  /** A breaking change's type block ends with the banner, whatever precedes it. */
  lemma BannerEndsBreakingBlocks(head: string, summaryBlock: string, filesBlock: string, t: CommitType)
    ensures EndsWithBanner(head + (summaryBlock + (filesBlock + TypeBlock(t, true))))
  {
    var tail := BreakingBanner + "\n";
    var typeLine := TypeLine(t) + "\n";
    var typeBlock := TypeBlock(t, true);
    var filesOn := filesBlock + typeBlock;
    var summaryOn := summaryBlock + filesOn;
    assert typeBlock == typeLine + tail;
    SuffixOfConcat(typeLine, tail, |tail|);
    SuffixOfConcat(filesBlock, typeBlock, |tail|);
    SuffixOfConcat(summaryBlock, filesOn, |tail|);
    SuffixOfConcat(head, summaryOn, |tail|);
  }

  /** A non-breaking change's text ends with an empty line, which the banner does not. */
  lemma NoBannerEndsPlainBlocks(head: string, summaryBlock: string, filesBlock: string, t: CommitType)
    ensures !EndsWithBanner(head + (summaryBlock + (filesBlock + TypeBlock(t, false))))
  {
    var tail := BreakingBanner + "\n";
    var typeBlock := TypeBlock(t, false);
    var filesOn := filesBlock + typeBlock;
    var summaryOn := summaryBlock + filesOn;
    var e := head + summaryOn;
    assert typeBlock == (TypeLine(t) + "\n") + "\n";
    SuffixOfConcat(filesBlock, typeBlock, 2);
    SuffixOfConcat(summaryBlock, filesOn, 2);
    SuffixOfConcat(head, summaryOn, 2);
    assert e[|e| - 2] == '\n';
    assert tail[|tail| - 2] == 'S';
  }

  /** The entry ends with the banner line exactly when the change is breaking. */
  lemma BannerIffBreaking(message: string, a: DiffAnalysis)
    ensures EndsWithBanner(Entry(message, a)) <==> a.breakingChange
  {
    if a.breakingChange {
      BannerEndsBreakingBlocks(HeaderBlock(message), SummaryBlock(a.summary), FilesBlock(a.files), a.changeType);
    } else {
      NoBannerEndsPlainBlocks(HeaderBlock(message), SummaryBlock(a.summary), FilesBlock(a.files), a.changeType);
    }
  }

  /** The entry's last line before the final newline is the banner. */
  predicate EndsWithBanner(entry: string)
  {
    var tail := BreakingBanner + "\n";
    |tail| <= |entry| && entry[|entry| - |tail|..] == tail
  }

  lemma PrefixExtends(x: string, y: string, z: string)
    ensures StartsWith((x + y) + z, x)
  {
    assert ((x + y) + z)[..|x|] == x;
  }
}

=== FILE: commit_message.dfy ===
/** The `generate_message` step: scope candidates from the file paths, the model's
    commit fields, the analysis' breaking flag, and the rendered message text. */
module CommitMessage {
  import opened Wrappers
  import opened Text
  import opened Order
  import opened Models

  // ---------------------------------------------------------------------------
  // Scope candidates

  /** `parts[1]` of `path.split('/')` when there is more than one part: the SECOND
      segment of the path (the first directory below the top one). */
  function ScopeCandidate(path: string): Option<string>
  {
    var parts := Split(path, '/');
    if |parts| > 1 then Some(parts[1]) else None
  }

  /** A path has a candidate exactly when it holds a `/`. */
  lemma ScopeCandidateIffSlash(path: string)
    ensures ScopeCandidate(path).Some? <==> '/' in path
  {
    SplitSingleIff(path, '/');
  }

  /** The candidate is the text between the first and the second `/` (or the end). */
  lemma ScopeCandidateIsSecondSegment(first: string, second: string, rest: string)
    requires '/' !in first && '/' !in second
    requires rest == [] || rest[0] == '/'
    ensures ScopeCandidate(first + "/" + second + rest) == Some(second)
  {
    SplitConcat(first, second + rest, '/');
    assert first + "/" + second + rest == first + ['/'] + (second + rest);
    SplitNoSeparator(first, '/');
    if rest == [] {
      SplitNoSeparator(second, '/');
      assert second + rest == second;
    } else {
      assert rest == ['/'] + rest[1..];
      SplitConcat(second, rest[1..], '/');
      assert second + rest == second + ['/'] + rest[1..];
      SplitNoSeparator(second, '/');
    }
  }

  /** `x` is the candidate of some path. */
  ghost predicate IsCandidate(paths: seq<string>, x: string)
  {
    exists i :: 0 <= i < |paths| && ScopeCandidate(paths[i]) == Some(x)
  }

  /** `sorted(common_dirs)`: the candidates, each once, in Python string order. */
  function SortedScopes(paths: seq<string>): (scopes: seq<string>)
    ensures StrictlySorted(scopes)
    ensures forall x :: x in scopes <==> IsCandidate(paths, x)
    decreases |paths|
  {
    if |paths| == 0 then []
    else
      var rest := SortedScopes(paths[1..]);
      CandidatesOfTail(paths);
      match ScopeCandidate(paths[0])
      case None => rest
      case Some(c) => InsertSorted(rest, c)
  }

  lemma CandidatesOfTail(paths: seq<string>)
    requires |paths| > 0
    ensures forall x :: IsCandidate(paths, x) <==>
      ScopeCandidate(paths[0]) == Some(x) || IsCandidate(paths[1..], x)
  {
    forall x
      ensures IsCandidate(paths, x) <==> ScopeCandidate(paths[0]) == Some(x) || IsCandidate(paths[1..], x)
    {
      if IsCandidate(paths, x) && ScopeCandidate(paths[0]) != Some(x) {
        var i :| 0 <= i < |paths| && ScopeCandidate(paths[i]) == Some(x);
        assert paths[1..][i - 1] == paths[i];
      }
      if IsCandidate(paths[1..], x) {
        var i :| 0 <= i < |paths[1..]| && ScopeCandidate(paths[1..][i]) == Some(x);
        assert paths[i + 1] == paths[1..][i];
      }
    }
  }

  /** Whatever order the paths come in, the candidate list is the same. */
  lemma SortedScopesIgnoresOrder(paths: seq<string>, others: seq<string>)
    requires forall x :: IsCandidate(paths, x) <==> IsCandidate(others, x)
    ensures SortedScopes(paths) == SortedScopes(others)
  {
    StrictlySortedUnique(SortedScopes(paths), SortedScopes(others));
  }

  const NoScopes: string := "none detected"

  /** `", ".join(sorted(common_dirs)) or "none detected"`. It falls back to
      "none detected" exactly when every candidate is empty (no path holds a `/`, or
      each second segment is empty as in `src/` or `a//b`); otherwise it is the
      comma-separated sorted list. */
  function ScopesText(paths: seq<string>): (text: string)
    ensures (forall x :: IsCandidate(paths, x) ==> x == "") ==> text == NoScopes
    ensures !(forall x :: IsCandidate(paths, x) ==> x == "") ==>
      text == Join(SortedScopes(paths), ", ") != ""
  {
    var scopes := SortedScopes(paths);
    var joined := Join(scopes, ", ");
    JoinEmptyIff(scopes, ", ");
    assert joined == "" <==> forall x :: IsCandidate(paths, x) ==> x == "" by {
      if forall x :: IsCandidate(paths, x) ==> x == "" {
        assert forall i :: 0 <= i < |scopes| ==> scopes[i] in scopes;
        SortedEmptiesAreShort(scopes);
      } else {
        var x :| IsCandidate(paths, x) && x != "";
        assert x in scopes;
      }
    }
    if joined == "" then NoScopes else joined
  }

  /** A strictly sorted list of empty strings has at most one of them. */
  lemma SortedEmptiesAreShort(xs: seq<string>)
    requires StrictlySorted(xs)
    requires forall i :: 0 <= i < |xs| ==> xs[i] == ""
    ensures xs == [] || xs == [""]
  {
    assert |xs| > 1 ==> Less(xs[0], xs[1]);
  }

  /** A join with a non-empty separator is empty only for no pieces or one empty piece. */
  lemma JoinEmptyIff(parts: seq<string>, sep: string)
    requires |sep| > 0
    ensures Join(parts, sep) == "" <==> parts == [] || parts == [""]
  {
    if |parts| > 1 {
      assert |Join(parts, sep)| >= |sep|;
    }
  }

  /** `if commit.scope:` holds for a present, non-empty scope. */
  function ScopeText(scope: Option<string>): string
  {
    if scope.Some? && scope.value != "" then scope.value else ""
  }

  /** The optional body or footer, after a blank line, when present and non-empty. */
  function Section(part: Option<string>): string
  {
    if part.Some? && part.value != "" then "\n\n" + part.value else ""
  }

  /** `(scope)` when the scope is present and non-empty. */
  function ScopePart(scope: Option<string>): string
  {
    if ScopeText(scope) != "" then "(" + ScopeText(scope) + ")" else ""
  }

  function BangPart(breaking: bool): string
  {
    if breaking then "!" else ""
  }

  /** Everything after the header's `: `. */
  function Tail(c: ConventionalCommit): string
  {
    c.description + Section(c.body) + Section(c.footer)
  }

  /** The message text the step appends to the conversation. It opens with the type
      name, and reading its header back yields the type, the (non-empty) scope, the
      breaking flag, and the description followed by body and footer. */
  function Render(c: ConventionalCommit): (m: string)
    ensures StartsWith(m, CommitTypeName(c.commitType))
    ensures ')' !in ScopeText(c.scope) ==>
      DecodeHeader(m) == Some(HeaderParts(c.commitType, ScopeText(c.scope), c.breaking, Tail(c)))
  {
    var afterType := ScopePart(c.scope) + (BangPart(c.breaking) + ": " + Tail(c));
    StartsWithConcat(CommitTypeName(c.commitType), afterType);
    assert ')' !in ScopeText(c.scope) ==>
      DecodeHeader(CommitTypeName(c.commitType) + afterType)
        == Some(HeaderParts(c.commitType, ScopeText(c.scope), c.breaking, Tail(c))) by {
      if ')' !in ScopeText(c.scope) {
        DecodeRendered(c.commitType, c.scope, c.breaking, Tail(c));
      }
    }
    CommitTypeName(c.commitType) + afterType
  }

  // A reader for rendered headers, used to show what a rendered message carries.

  datatype HeaderParts = HeaderParts(commitType: CommitType, scope: string, breaking: bool, rest: string)

  predicate IsLowerLetter(c: char)
  {
    'a' <= c <= 'z'
  }

  /** Length of the run of lower-case letters that starts `s`. */
  function LeadingLetters(s: string): (n: nat)
    ensures n <= |s|
    ensures forall i :: 0 <= i < n ==> IsLowerLetter(s[i])
    ensures n < |s| ==> !IsLowerLetter(s[n])
    decreases |s|
  {
    if |s| > 0 && IsLowerLetter(s[0]) then 1 + LeadingLetters(s[1..]) else 0
  }

  /** Position of the first `c` in `s`, or `|s|`. */
  function IndexOf(s: string, c: char): (k: nat)
    ensures k <= |s|
    ensures forall i :: 0 <= i < k ==> s[i] != c
    ensures k < |s| ==> s[k] == c
    decreases |s|
  {
    if |s| == 0 || s[0] == c then 0 else 1 + IndexOf(s[1..], c)
  }

  /** Reads `type(scope)!: ` back off the front of a message. */
  function DecodeHeader(m: string): Option<HeaderParts>
  {
    var k := LeadingLetters(m);
    match ParseCommitType(m[..k])
    case None => None
    case Some(t) => DecodeScope(t, m[k..])
  }

  /** Reads an optional `(scope)`; an empty `()` is not a scope the rendering writes. */
  function DecodeScope(t: CommitType, s: string): Option<HeaderParts>
  {
    if |s| > 0 && s[0] == '(' then
      var inner := s[1..];
      var close := IndexOf(inner, ')');
      if close == 0 || close == |inner| then None else DecodeBang(t, inner[..close], inner[close + 1..])
    else DecodeBang(t, "", s)
  }

  /** Reads an optional `!` and the `: ` separator. */
  function DecodeBang(t: CommitType, scope: string, s: string): Option<HeaderParts>
  {
    var breaking := |s| > 0 && s[0] == '!';
    var after := if breaking then s[1..] else s;
    if StartsWith(after, ": ") then Some(HeaderParts(t, scope, breaking, after[2..])) else None
  }

  lemma {:induction false} LeadingLettersConcat(a: string, b: string)
    requires forall i :: 0 <= i < |a| ==> IsLowerLetter(a[i])
    ensures LeadingLetters(a + b) == |a| + LeadingLetters(b)
    decreases |a|
  {
    if |a| == 0 {
      assert a + b == b;
    } else {
      assert (a + b)[1..] == a[1..] + b;
      LeadingLettersConcat(a[1..], b);
    }
  }

  lemma {:induction false} IndexOfConcat(a: string, b: string, c: char)
    requires c !in a
    ensures IndexOf(a + b, c) == |a| + IndexOf(b, c)
    decreases |a|
  {
    if |a| == 0 {
      assert a + b == b;
    } else {
      assert (a + b)[1..] == a[1..] + b;
      IndexOfConcat(a[1..], b, c);
    }
  }

  lemma TypeNameIsLetters(t: CommitType)
    ensures forall i :: 0 <= i < |CommitTypeName(t)| ==> IsLowerLetter(CommitTypeName(t)[i])
  {
  }

  lemma DecodeTypeName(t: CommitType, tail: string)
    requires |tail| > 0 && !IsLowerLetter(tail[0])
    ensures DecodeHeader(CommitTypeName(t) + tail) == DecodeScope(t, tail)
  {
    var name := CommitTypeName(t);
    TypeNameIsLetters(t);
    LeadingLettersConcat(name, tail);
    assert (name + tail)[..|name|] == name;
    assert (name + tail)[|name|..] == tail;
  }

  lemma DecodeScopePart(t: CommitType, scope: string, tail: string)
    requires scope != "" && ')' !in scope
    ensures DecodeScope(t, "(" + scope + ")" + tail) == DecodeBang(t, scope, tail)
  {
    var s := "(" + scope + ")" + tail;
    assert s[1..] == scope + (")" + tail);
    IndexOfConcat(scope, ")" + tail, ')');
    assert s[1..][..|scope|] == scope;
    assert s[1..][|scope| + 1..] == tail;
  }

  lemma DecodeBangPart(t: CommitType, scope: string, breaking: bool, rest: string)
    ensures DecodeBang(t, scope, BangPart(breaking) + ": " + rest)
      == Some(HeaderParts(t, scope, breaking, rest))
  {
    var s := BangPart(breaking) + ": " + rest;
    if breaking {
      assert s[1..] == ": " + rest;
    }
    assert (": " + rest)[2..] == rest;
  }

  /** `(scope)` for a non-empty scope, nothing otherwise. */
  function Parenthesized(scope: string): string
  {
    if scope == "" then "" else "(" + scope + ")"
  }

  /** The `!` mark, the `: ` separator and the rest. */
  function BangTail(breaking: bool, rest: string): string
  {
    BangPart(breaking) + ": " + rest
  }

  /** The header text the parts stand for: the type name, `(scope)` only for a
      non-empty scope, `!` when breaking, then `: ` and the rest. */
  function HeaderText(p: HeaderParts): string
  {
    CommitTypeName(p.commitType) + (Parenthesized(p.scope) + BangTail(p.breaking, p.rest))
  }

  /** The `!` and `: ` reader accepts only the text they render. */
  lemma BangDetermines(t: CommitType, scope: string, s: string)
    requires DecodeBang(t, scope, s).Some?
    ensures var p := DecodeBang(t, scope, s).value;
      p.commitType == t && p.scope == scope && s == BangTail(p.breaking, p.rest)
  {
    var p := DecodeBang(t, scope, s).value;
    var after := if p.breaking then s[1..] else s;
    assert after == ": " + p.rest by { assert after[..2] == ": "; }
    if p.breaking {
      assert s == [s[0]] + s[1..];
    }
  }

  /** Cutting `(`, the text before the first `)`, the `)` and the remainder. */
  lemma ParenthesesSplit(s: string, close: nat)
    requires |s| > 0 && s[0] == '(' && close < |s| - 1 && s[1..][close] == ')'
    ensures s == "(" + s[1..][..close] + ")" + s[1..][close + 1..]
  {
    var inner := s[1..];
    assert inner == inner[..close] + [inner[close]] + inner[close + 1..];
    assert s == [s[0]] + inner;
  }

  /** The scope reader accepts only `(scope)` with a non-empty scope, or no parentheses. */
  lemma ScopeDetermines(t: CommitType, s: string)
    requires DecodeScope(t, s).Some?
    ensures var p := DecodeScope(t, s).value;
      p.commitType == t && s == Parenthesized(p.scope) + BangTail(p.breaking, p.rest)
  {
    if |s| > 0 && s[0] == '(' {
      var inner := s[1..];
      var close := IndexOf(inner, ')');
      var scope := inner[..close];
      var rest := inner[close + 1..];
      assert DecodeScope(t, s) == DecodeBang(t, scope, rest);
      BangDetermines(t, scope, rest);
      ParenthesesSplit(s, close);
      assert scope != "" by { assert |scope| == close > 0; }
    } else {
      assert DecodeScope(t, s) == DecodeBang(t, "", s);
      BangDetermines(t, "", s);
    }
  }

  /** A type name followed by the rest of a header is that header's text. */
  lemma HeaderFromPieces(m: string, k: nat, p: HeaderParts)
    requires k <= |m| && m[..k] == CommitTypeName(p.commitType)
    requires m[k..] == Parenthesized(p.scope) + BangTail(p.breaking, p.rest)
    ensures m == HeaderText(p)
  {
    assert m == m[..k] + m[k..];
  }

  /** A decoded header fixes the message it was read from. */
  lemma DecodeDetermines(m: string)
    requires DecodeHeader(m).Some?
    ensures m == HeaderText(DecodeHeader(m).value)
  {
    var k := LeadingLetters(m);
    var t := ParseCommitType(m[..k]).value;
    var p := DecodeScope(t, m[k..]);
    assert DecodeHeader(m) == p;
    ScopeDetermines(t, m[k..]);
    HeaderFromPieces(m, k, p.value);
  }

  /** With its read-back clause, `Render`'s contract determines the message: any text
      that opens with the type name and reads back as the commit's parts is the
      rendered one, so `feat(): x` is not a rendering of a commit without scope. */
  lemma RenderDetermined(c: ConventionalCommit, m: string)
    requires ')' !in ScopeText(c.scope)
    requires DecodeHeader(m) == Some(HeaderParts(c.commitType, ScopeText(c.scope), c.breaking, Tail(c)))
    ensures m == Render(c)
  {
    DecodeDetermines(m);
    DecodeDetermines(Render(c));
  }

  /** The header reader undoes the rendering of type, scope and breaking mark. */
  lemma DecodeRendered(t: CommitType, scope: Option<string>, breaking: bool, tail: string)
    requires ')' !in ScopeText(scope)
    ensures DecodeHeader(CommitTypeName(t) + (ScopePart(scope) + (BangPart(breaking) + ": " + tail)))
      == Some(HeaderParts(t, ScopeText(scope), breaking, tail))
  {
    var text := ScopeText(scope);
    var afterScope := BangPart(breaking) + ": " + tail;
    var afterType := ScopePart(scope) + afterScope;
    DecodeTypeName(t, afterType);
    if text != "" {
      DecodeScopePart(t, text, afterScope);
    } else {
      assert afterType == afterScope;
      assert afterScope[0] == '!' || afterScope[0] == ':';
    }
    DecodeBangPart(t, text, breaking, tail);
  }

  // ---------------------------------------------------------------------------
  // The step

  /** What the commit prompt is built from. */
  datatype CommitPrompt = CommitPrompt(analysis: DiffAnalysis, scopes: string)

  /** The commit reply's fields, with the type still an unchecked name. */
  datatype CommitReply = CommitReply(
    commitType: string, scope: Option<string>, description: string,
    breaking: bool, body: Option<string>, footer: Option<string>)

  /** The commit model call; `None` when the reply does not fit the record. */
  type CommitOracle = CommitPrompt -> Option<CommitReply>

  function FilePaths(files: seq<FileChange>): (paths: seq<string>)
    ensures |paths| == |files|
    ensures forall i :: 0 <= i < |files| ==> paths[i] == files[i].path
  {
    seq(|files|, i requires 0 <= i < |files| => files[i].path)
  }

  function PromptFor(a: DiffAnalysis): CommitPrompt
  {
    CommitPrompt(a, ScopesText(FilePaths(a.files)))
  }

  /** The commit record built from a reply: the analysis' breaking flag replaces the
      model's. */
  function CommitFrom(reply: CommitReply, t: CommitType, a: DiffAnalysis): (c: ConventionalCommit)
    ensures c.breaking == a.breakingChange
    ensures c.commitType == t
    ensures c.scope == reply.scope && c.description == reply.description
    ensures c.body == reply.body && c.footer == reply.footer
  {
    ConventionalCommit(t, reply.scope, reply.description, a.breakingChange, reply.body, reply.footer)
  }

  /** `generate_commit_message`: a rendered message, or the failure the record
      validation raises. */
  function GenerateMessage(a: DiffAnalysis, ask: CommitOracle): (r: Result<string, Failure>)
    ensures r.Ok? <==> ask(PromptFor(a)).Some? && ParseCommitType(ask(PromptFor(a)).value.commitType).Some?
  {
    match ask(PromptFor(a))
    case None => Err(MalformedCommit)
    case Some(reply) =>
      match ParseCommitType(reply.commitType)
      case None => Err(UnknownCommitType(reply.commitType))
      case Some(t) => Ok(Render(CommitFrom(reply, t, a)))
  }

  /** The rendered header carries the reply's type and scope and the ANALYSIS' breaking
      flag: the `!` is there exactly when the analysis says the change is breaking,
      whatever the model's own `breaking` field said. */
  lemma GeneratedHeaderFollowsAnalysis(a: DiffAnalysis, ask: CommitOracle)
    requires GenerateMessage(a, ask).Ok?
    requires ')' !in ScopeText(ask(PromptFor(a)).value.scope)
    ensures var reply := ask(PromptFor(a)).value;
      var h := DecodeHeader(GenerateMessage(a, ask).value);
      && h.Some?
      && CommitTypeName(h.value.commitType) == reply.commitType
      && h.value.scope == ScopeText(reply.scope)
      && h.value.breaking == a.breakingChange
      && h.value.rest == reply.description + Section(reply.body) + Section(reply.footer)
  {
    var reply := ask(PromptFor(a)).value;
    var t := ParseCommitType(reply.commitType).value;
    assert GenerateMessage(a, ask).value == Render(CommitFrom(reply, t, a));
  }
}

=== FILE: diff_parser.dfy ===
/** `parse_git_diff`: turns each patched-file record of the diff library into a
    `GitFileChange` with an empty purpose. */
module DiffParser {
  import opened Wrappers
  import opened Text
  import opened Models

  /** The argument of `path.lstrip('b/')`: a character SET, not a prefix. */
  const PathStripChars: set<char> := {'b', '/'}
  /** The argument of `source_file.lstrip('a/')`. */
  const OldPathStripChars: set<char> := {'a', '/'}

  /** Number of lines of the given kind. */
  function CountKind(lines: seq<LineKind>, k: LineKind): (n: nat)
    ensures n <= |lines|
  {
    if |lines| == 0 then 0
    else (if lines[0] == k then 1 else 0) + CountKind(lines[1..], k)
  }

  /** Every body line is added, removed or context. */
  lemma {:induction false} KindsPartitionLines(lines: seq<LineKind>)
    ensures CountKind(lines, Added) + CountKind(lines, Removed) + CountKind(lines, Context) == |lines|
  {
    if |lines| > 0 {
      KindsPartitionLines(lines[1..]);
    }
  }

  lemma {:induction false} CountKindConcat(a: seq<LineKind>, b: seq<LineKind>, k: LineKind)
    ensures CountKind(a + b, k) == CountKind(a, k) + CountKind(b, k)
  {
    if |a| == 0 {
      assert a + b == b;
    } else {
      assert (a + b)[1..] == a[1..] + b;
      CountKindConcat(a[1..], b, k);
    }
  }

  /** The `hunk_info` dictionary of one hunk. `modified_lines` is `len(hunk)`, the whole
      body including context, so it bounds the added and removed counts together. */
  function HunkStats(h: Hunk): (info: HunkInfo)
    ensures info.oldStart == h.sourceStart && info.oldLength == h.sourceLength
    ensures info.newStart == h.targetStart && info.newLength == h.targetLength
    ensures info.modifiedLines == |h.lines|
    ensures info.addedLines == CountKind(h.lines, Added)
    ensures info.removedLines == CountKind(h.lines, Removed)
    ensures info.addedLines + info.removedLines <= info.modifiedLines
  {
    KindsPartitionLines(h.lines);
    HunkInfo(h.sourceStart, h.sourceLength, h.targetStart, h.targetLength,
             CountKind(h.lines, Added), CountKind(h.lines, Removed), |h.lines|)
  }

  /** Change-type detection. The first matching flag wins, in the order
      added, removed, rename, binary; anything else is a modification. */
  function Classify(p: PatchedFile): (t: ChangeType)
    ensures t == New <==> p.isAddedFile
    ensures t == Deleted <==> !p.isAddedFile && p.isRemovedFile
    ensures t == Renamed <==> !p.isAddedFile && !p.isRemovedFile && p.isRename
    ensures t == Binary <==> !p.isAddedFile && !p.isRemovedFile && !p.isRename && p.isBinaryFile
    ensures t == Modified <==> !p.isAddedFile && !p.isRemovedFile && !p.isRename && !p.isBinaryFile
    ensures t != ModeChanged && t != Submodule && t != Conflict
  {
    if p.isAddedFile then New
    else if p.isRemovedFile then Deleted
    else if p.isRename then Renamed
    else if p.isBinaryFile then Binary
    else Modified
  }

  /** Every body line of every hunk, in order. */
  function BodyLines(hunks: seq<Hunk>): seq<LineKind>
  {
    if |hunks| == 0 then [] else hunks[0].lines + BodyLines(hunks[1..])
  }

  function HunkInfos(hunks: seq<Hunk>): (infos: seq<HunkInfo>)
    ensures |infos| == |hunks|
    ensures forall j :: 0 <= j < |hunks| ==> infos[j] == HunkStats(hunks[j])
  {
    seq(|hunks|, j requires 0 <= j < |hunks| => HunkStats(hunks[j]))
  }

  /** The per-hunk counts add up to the counts over the whole file body. */
  lemma {:induction false} HunkSumsCountBody(hunks: seq<Hunk>)
    ensures SumAdded(HunkInfos(hunks)) == CountKind(BodyLines(hunks), Added)
    ensures SumRemoved(HunkInfos(hunks)) == CountKind(BodyLines(hunks), Removed)
  {
    if |hunks| > 0 {
      HunkSumsCountBody(hunks[1..]);
      assert HunkInfos(hunks)[1..] == HunkInfos(hunks[1..]);
      CountKindConcat(hunks[0].lines, BodyLines(hunks[1..]), Added);
      CountKindConcat(hunks[0].lines, BodyLines(hunks[1..]), Removed);
    }
  }

  /** One iteration of the loop over patched files. */
  function ParseFile(p: PatchedFile): (f: FileChange)
    ensures f.purpose == ""
    ensures f.changeType == Classify(p)
    ensures f.path == LStrip(p.path, PathStripChars)
    ensures f.oldPath.Some? <==> f.changeType == Deleted || f.changeType == Renamed
    ensures f.oldPath.Some? ==> f.oldPath.value == LStrip(p.sourceFile, OldPathStripChars)
    ensures |f.hunks| == |p.hunks|
    ensures forall j :: 0 <= j < |p.hunks| ==> f.hunks[j] == HunkStats(p.hunks[j])
    ensures TotalsConsistent(f)
    ensures f.addedLines == CountKind(BodyLines(p.hunks), Added)
    ensures f.removedLines == CountKind(BodyLines(p.hunks), Removed)
  {
    var changeType := Classify(p);
    var oldPath :=
      if changeType == Deleted || changeType == Renamed
      then Some(LStrip(p.sourceFile, OldPathStripChars))
      else None;
    var infos := HunkInfos(p.hunks);
    HunkSumsCountBody(p.hunks);
    FileChange(LStrip(p.path, PathStripChars), changeType, oldPath,
               SumAdded(infos), SumRemoved(infos), infos, "")
  }

  /** `parse_git_diff`: one change per patched file, in the library's order. */
  function ParseGitDiff(patches: seq<PatchedFile>): (changes: seq<FileChange>)
    ensures |changes| == |patches|
    ensures forall i :: 0 <= i < |patches| ==> changes[i] == ParseFile(patches[i])
  {
    seq(|patches|, i requires 0 <= i < |patches| => ParseFile(patches[i]))
  }

  /** The character-set strip in action: a `b` that starts a directory name is lost. */
  lemma PathStripLosesLeadingB()
    ensures LStrip("build/x", PathStripChars) == "uild/x"
  {
    var s := "build/x";
    assert s[0] == 'b' && s[1..] == "uild/x";
    assert 'u' !in PathStripChars;
  }

  /** ... and `a/app.py` loses the `a` of `app.py` as well as the `a/`. */
  lemma OldPathStripLosesLeadingA()
    ensures LStrip("a/app.py", OldPathStripChars) == "pp.py"
  {
    var s := "a/app.py";
    assert s[0] == 'a' && s[1..] == "/app.py";
    assert s[1..][0] == '/' && s[1..][1..] == "app.py";
    assert "app.py"[0] == 'a' && "app.py"[1..] == "pp.py";
    assert 'p' !in OldPathStripChars;
  }

  /** A parsed path never starts with a stripped character, and is exactly what remains
      after all leading `b` and `/` characters are dropped. */
  lemma ParsedPathShape(p: PatchedFile)
    ensures var path := ParseFile(p).path;
      && (|path| > 0 ==> path[0] != 'b' && path[0] != '/')
      && IsLeftStrip(p.path, PathStripChars, path)
  {
  }
}

=== FILE: file_diff.dfy ===
/** `extract_file_diff`: the slice of the full diff text that the per-file prompt shows. */
module FileDiff {
  import opened Text

  const HeaderMarker: string := "diff --git"

  /** A `diff --git` header line. */
  predicate IsHeader(line: string)
  {
    StartsWith(line, HeaderMarker)
  }

  /** A header line naming the target path (as a plain substring). */
  predicate OpensTarget(line: string, path: string)
  {
    IsHeader(line) && Contains(line, path)
  }

  /** A header line of some other file. */
  predicate ClosesTarget(line: string, path: string)
  {
    IsHeader(line) && !Contains(line, path)
  }

  /** Index of the first target header at or after `from`, or `|lines|` when none. */
  function FirstOpen(lines: seq<string>, path: string, from: nat): (k: nat)
    requires from <= |lines|
    ensures from <= k <= |lines|
    ensures forall m :: from <= m < k ==> !OpensTarget(lines[m], path)
    ensures k < |lines| ==> OpensTarget(lines[k], path)
    decreases |lines| - from
  {
    if from == |lines| then from
    else if OpensTarget(lines[from], path) then from
    else FirstOpen(lines, path, from + 1)
  }

  /** Index of the first header of another file at or after `from`, or `|lines|`. */
  function FirstClose(lines: seq<string>, path: string, from: nat): (k: nat)
    requires from <= |lines|
    ensures from <= k <= |lines|
    ensures forall m :: from <= m < k ==> !ClosesTarget(lines[m], path)
    ensures k < |lines| ==> ClosesTarget(lines[k], path)
    decreases |lines| - from
  {
    if from == |lines| then from
    else if ClosesTarget(lines[from], path) then from
    else FirstClose(lines, path, from + 1)
  }

  /** The lines `extract_file_diff` keeps: from the first header naming the path up to,
      not including, the next header that does not name it. Later headers that do name
      the path are kept and do not end the slice. */
  function SliceLines(lines: seq<string>, path: string): seq<string>
  {
    var start := FirstOpen(lines, path, 0);
    if start == |lines| then [] else lines[start..FirstClose(lines, path, start + 1)]
  }

  /** `extract_file_diff(full_diff, file_path)`: empty exactly when no header line
      names the path, and always a contiguous piece of the full diff text. */
  function ExtractFileDiff(fullDiff: string, path: string): (fileDiff: string)
    ensures fileDiff == "" <==> NoTargetHeader(Split(fullDiff, '\n'), path)
    ensures exists i :: OccursAt(fullDiff, fileDiff, i)
  {
    var lines := Split(fullDiff, '\n');
    var slice := SliceLines(lines, path);
    var start := FirstOpen(lines, path, 0);
    JoinSplit(fullDiff, '\n');
    if start < |lines| then
      assert slice[0] == lines[start];
      JoinStartsWithFirst(slice, "\n");
      assert |slice[0]| >= |HeaderMarker| > 0;
      JoinSliceOccurs(lines, "\n", start, FirstClose(lines, path, start + 1));
      Join(slice, "\n")
    else
      assert OccursAt(fullDiff, Join(slice, "\n"), 0);
      Join(slice, "\n")
  }

  /** The extracted text is the joined slice, whichever branch produced it. */
  lemma ExtractJoinsSlice(fullDiff: string, path: string)
    ensures ExtractFileDiff(fullDiff, path) == Join(SliceLines(Split(fullDiff, '\n'), path), "\n")
  {
  }

  /** The line scanner as the source writes it: a flag that turns on at a target header
      and a `break` at the first other header seen while it is on. */
  method ScanFileDiff(fullDiff: string, path: string) returns (fileDiff: string)
    ensures fileDiff == ExtractFileDiff(fullDiff, path)
  {
    var lines := Split(fullDiff, '\n');
    var kept: seq<string> := [];
    var inTarget := false;
    var i := 0;
    ghost var start := FirstOpen(lines, path, 0);
    while i < |lines|
      invariant 0 <= i <= |lines|
      invariant !inTarget ==> kept == [] && start >= i
      invariant inTarget ==> start < i && kept == lines[start..i] && FirstClose(lines, path, start + 1) >= i
    {
      var line := lines[i];
      if IsHeader(line) && Contains(line, path) {
        assert OpensTarget(lines[i], path);
        if !inTarget {
          assert start == i;
        } else {
          assert !ClosesTarget(lines[i], path);
        }
        inTarget := true;
      } else if IsHeader(line) && inTarget {
        assert ClosesTarget(lines[i], path);
        assert FirstClose(lines, path, start + 1) == i;
        break;
      }
      if inTarget {
        assert !ClosesTarget(lines[i], path);
        assert FirstClose(lines, path, start + 1) > i;
        kept := kept + [line];
      }
      i := i + 1;
    }
    assert kept == SliceLines(lines, path);
    ExtractJoinsSlice(fullDiff, path);
    fileDiff := Join(kept, "\n");
  }

  /** No line is a header naming the path. */
  predicate NoTargetHeader(lines: seq<string>, path: string)
  {
    forall k :: 0 <= k < |lines| ==> !OpensTarget(lines[k], path)
  }

  /** A non-empty join begins with its first piece. */
  lemma {:induction false} JoinStartsWithFirst(parts: seq<string>, sep: string)
    requires |parts| > 0
    ensures StartsWith(Join(parts, sep), parts[0])
  {
    if |parts| > 1 {
      assert Join(parts, sep) == parts[0] + (sep + Join(parts[1..], sep));
    }
  }

  /** `r` occurs in `s` at offset `i`. */
  ghost predicate OccursAt(s: string, r: string, i: int)
  {
    0 <= i <= |s| - |r| && s[i..i + |r|] == r
  }

  /** A join splits at any inner piece boundary. */
  lemma {:induction false} JoinAt(parts: seq<string>, sep: string, k: nat)
    requires 0 < k < |parts|
    ensures Join(parts, sep) == Join(parts[..k], sep) + sep + Join(parts[k..], sep)
    decreases k
  {
    if k > 1 {
      JoinAt(parts[1..], sep, k - 1);
      assert parts[1..][..k - 1] == parts[..k][1..];
      assert parts[1..][k - 1..] == parts[k..];
    }
  }

  /** The joined pieces `a..b` occur in the join of all pieces. */
  lemma JoinSliceOccurs(parts: seq<string>, sep: string, a: nat, b: nat)
    requires a <= b <= |parts|
    ensures exists i :: OccursAt(Join(parts, sep), Join(parts[a..b], sep), i)
  {
    var whole := Join(parts, sep);
    var mid := Join(parts[a..b], sep);
    if a == b {
      assert OccursAt(whole, mid, 0);
    } else {
      var tail := Join(parts[a..], sep);
      var prefix := if a == 0 then "" else Join(parts[..a], sep) + sep;
      assert whole == prefix + tail by {
        if a > 0 {
          JoinAt(parts, sep, a);
        }
      }
      var suffix := if b == |parts| then "" else sep + Join(parts[b..], sep);
      assert tail == mid + suffix by {
        if b < |parts| {
          JoinAt(parts[a..], sep, b - a);
          assert parts[a..][..b - a] == parts[a..b];
          assert parts[a..][b - a..] == parts[b..];
        } else {
          assert parts[a..b] == parts[a..];
        }
      }
      assert whole == prefix + mid + suffix;
      assert OccursAt(whole, mid, |prefix|);
    }
  }
}

=== FILE: models.dfy ===
/** The records the commit workflow passes around: the parsed-diff input, the
    `GitFileChange` / `GitDiffAnalysis` / `ConventionalCommit` models, and the
    failures that end a run. */
module Models {
  import opened Wrappers

  /** The kind of one line of a hunk body, as the diff library classifies it. */
  datatype LineKind = Added | Removed | Context

  /** One hunk as the diff library delivers it: its `@@` ranges and its body lines. */
  datatype Hunk = Hunk(
    sourceStart: nat, sourceLength: nat,
    targetStart: nat, targetLength: nat,
    lines: seq<LineKind>)

  /** One patched file as the diff library delivers it. `path` is the library's own
      path property; `sourceFile` is the raw `---` name (for example `a/src/x.py`). */
  datatype PatchedFile = PatchedFile(
    isAddedFile: bool, isRemovedFile: bool, isRename: bool, isBinaryFile: bool,
    path: string, sourceFile: string,
    hunks: seq<Hunk>)

  /** The change types a `GitFileChange` may carry. The last three are declared by the
      record type but never produced by the parser. */
  datatype ChangeType = New | Deleted | Renamed | ModeChanged | Modified | Binary | Submodule | Conflict

  /** The per-hunk summary the parser records. */
  datatype HunkInfo = HunkInfo(
    oldStart: nat, oldLength: nat, newStart: nat, newLength: nat,
    addedLines: nat, removedLines: nat, modifiedLines: nat)

  /** `GitFileChange` */
  datatype FileChange = FileChange(
    path: string,
    changeType: ChangeType,
    oldPath: Option<string>,
    addedLines: nat,
    removedLines: nat,
    hunks: seq<HunkInfo>,
    purpose: string)

  /** Sum of the per-hunk added-line counts. */
  function SumAdded(hunks: seq<HunkInfo>): nat
  {
    if |hunks| == 0 then 0 else hunks[0].addedLines + SumAdded(hunks[1..])
  }

  /** Sum of the per-hunk removed-line counts. */
  function SumRemoved(hunks: seq<HunkInfo>): nat
  {
    if |hunks| == 0 then 0 else hunks[0].removedLines + SumRemoved(hunks[1..])
  }

  /** The file totals agree with the hunk list. */
  predicate TotalsConsistent(f: FileChange)
  {
    f.addedLines == SumAdded(f.hunks) && f.removedLines == SumRemoved(f.hunks)
  }

  /** The conventional-commit types, shared by `GitDiffAnalysis` and `ConventionalCommit`. */
  datatype CommitType = Feat | Fix | Docs | Refactor | Test | Chore | Style | Perf

  function CommitTypeName(t: CommitType): string
  {
    match t
    case Feat => "feat"
    case Fix => "fix"
    case Docs => "docs"
    case Refactor => "refactor"
    case Test => "test"
    case Chore => "chore"
    case Style => "style"
    case Perf => "perf"
  }

  /** Validation of a model-supplied type name against the closed set of literals:
      accepted exactly when it is one of the eight names, and then it names that type. */
  function ParseCommitType(s: string): (r: Option<CommitType>)
    ensures r.Some? ==> CommitTypeName(r.value) == s
    ensures forall t :: CommitTypeName(t) == s ==> r == Some(t)
  {
    if s == "feat" then Some(Feat)
    else if s == "fix" then Some(Fix)
    else if s == "docs" then Some(Docs)
    else if s == "refactor" then Some(Refactor)
    else if s == "test" then Some(Test)
    else if s == "chore" then Some(Chore)
    else if s == "style" then Some(Style)
    else if s == "perf" then Some(Perf)
    else None
  }

  /** `GitDiffAnalysis` */
  datatype DiffAnalysis = DiffAnalysis(
    summary: string,
    changeType: CommitType,
    files: seq<FileChange>,
    breakingChange: bool)

  /** `ConventionalCommit` */
  datatype ConventionalCommit = ConventionalCommit(
    commitType: CommitType,
    scope: Option<string>,
    description: string,
    breaking: bool,
    body: Option<string>,
    footer: Option<string>)

  /** Why a run stops before writing the changelog. Each is an exception the
      workflow does not catch. */
  datatype Failure =
    | MalformedSummary                 // summary reply is not JSON with the three fields
    | UnknownChangeType(name: string)  // summary reply names a type outside the literals
    | MalformedCommit                  // commit reply does not fit `ConventionalCommit`
    | UnknownCommitType(name: string)  // commit reply names a type outside the literals
    | MalformedVerdict                 // quality reply is not `{"is_valid": <bool>}`
    | MissingAnalysis                  // a later step finds no analysis in the state
    | UnroutedNext                     // the routing label after `check_quality` has no edge
}

=== FILE: order.dfy ===
/** Python's ordering of `str` values (code point by code point, a proper prefix first)
    and duplicate-free sorted lists built by insertion, which is what `sorted(set(...))`
    yields. */
module Order {

  /** `a < b` on Python strings. */
  predicate Less(a: string, b: string)
    decreases |a|
  {
    if |a| == 0 then |b| > 0
    else if |b| == 0 then false
    else if a[0] != b[0] then a[0] < b[0]
    else Less(a[1..], b[1..])
  }

  lemma {:induction false} LessIrreflexive(a: string)
    ensures !Less(a, a)
    decreases |a|
  {
    if |a| > 0 {
      LessIrreflexive(a[1..]);
    }
  }

  lemma {:induction false} LessTransitive(a: string, b: string, c: string)
    requires Less(a, b) && Less(b, c)
    ensures Less(a, c)
    decreases |a|
  {
    if |a| > 0 && a[0] == b[0] && b[0] == c[0] {
      LessTransitive(a[1..], b[1..], c[1..]);
    }
  }

  /** Any two different strings are ordered one way or the other. */
  lemma {:induction false} LessConnected(a: string, b: string)
    requires a != b
    ensures Less(a, b) || Less(b, a)
    decreases |a|
  {
    if |a| > 0 && |b| > 0 && a[0] == b[0] {
      assert a == [a[0]] + a[1..] && b == [b[0]] + b[1..];
      LessConnected(a[1..], b[1..]);
    }
  }

  /** Strictly increasing, hence also free of duplicates. */
  ghost predicate StrictlySorted(xs: seq<string>)
  {
    forall i, j :: 0 <= i < j < |xs| ==> Less(xs[i], xs[j])
  }

  /** Adds `x` to a strictly sorted list, keeping it strictly sorted; a no-op when `x`
      is already present. */
  function InsertSorted(xs: seq<string>, x: string): (r: seq<string>)
    requires StrictlySorted(xs)
    ensures StrictlySorted(r)
    ensures forall y :: y in r <==> y in xs || y == x
    decreases |xs|
  {
    if |xs| == 0 then [x]
    else if x == xs[0] then xs
    else if Less(x, xs[0]) then
      LessThanHeadIsLeast(xs, x);
      [x] + xs
    else
      LessConnected(x, xs[0]);
      var rest := InsertSorted(xs[1..], x);
      assert forall y :: y in rest ==> Less(xs[0], y);
      [xs[0]] + rest
  }

  /** Whatever is below the head of a strictly sorted list is below all of it. */
  lemma LessThanHeadIsLeast(xs: seq<string>, x: string)
    requires StrictlySorted(xs) && |xs| > 0 && Less(x, xs[0])
    ensures forall j :: 0 <= j < |xs| ==> Less(x, xs[j])
  {
    forall j | 0 < j < |xs|
      ensures Less(x, xs[j])
    {
      LessTransitive(x, xs[0], xs[j]);
    }
  }

  /** A strictly sorted list is determined by its elements: this is what makes
      the result of `InsertSorted` folds "the" sorted list of a set. */
  lemma {:induction false} StrictlySortedUnique(xs: seq<string>, ys: seq<string>)
    requires StrictlySorted(xs) && StrictlySorted(ys)
    requires forall z :: z in xs <==> z in ys
    ensures xs == ys
    decreases |xs|
  {
    assert |xs| > 0 ==> xs[0] in ys;
    assert |ys| > 0 ==> ys[0] in xs;
    if |xs| > 0 && |ys| > 0 {
      assert xs[0] in ys && ys[0] in xs;
      if xs[0] != ys[0] {
        var i :| 0 <= i < |ys| && ys[i] == xs[0];
        var j :| 0 <= j < |xs| && xs[j] == ys[0];
        assert Less(ys[0], xs[0]) && Less(xs[0], ys[0]);
        LessTransitive(xs[0], ys[0], xs[0]);
        LessIrreflexive(xs[0]);
      }
      assert xs == [xs[0]] + xs[1..] && ys == [ys[0]] + ys[1..];
      forall z
        ensures z in xs[1..] <==> z in ys[1..]
      {
        TailMembers(xs, z);
        TailMembers(ys, z);
      }
      StrictlySortedUnique(xs[1..], ys[1..]);
    }
  }

  /** In a strictly sorted list the tail holds exactly the elements other than the head. */
  lemma TailMembers(xs: seq<string>, z: string)
    requires StrictlySorted(xs) && |xs| > 0
    ensures z in xs[1..] <==> z in xs && z != xs[0]
  {
    assert xs == [xs[0]] + xs[1..];
    if z in xs[1..] {
      var k :| 1 <= k < |xs| && xs[k] == z;
      LessIrreflexive(xs[0]);
    }
  }
}

=== FILE: text.dfy ===
/** String helpers with the semantics of the Python `str` methods the workflow uses:
    `startswith`, `in`, `split(sep)`, `sep.join(...)`, `lstrip(chars)`, `rstrip()`, `strip()`. */
module Text {

  /** `s.startswith(prefix)` */
  predicate StartsWith(s: string, prefix: string)
  {
    |prefix| <= |s| && s[..|prefix|] == prefix
  }

  /** A concatenation starts with its left part. */
  lemma StartsWithConcat(x: string, y: string)
    ensures StartsWith(x + y, x)
  {
    assert (x + y)[..|x|] == x;
  }

  /** `part in s`: some position of `s` starts an occurrence of `part`. */
  predicate Contains(s: string, part: string)
    decreases |s|
  {
    StartsWith(s, part) || (|s| > 0 && Contains(s[1..], part))
  }

  /** `s.split(sep)` for a one-character separator: never empty, and no piece holds `sep`. */
  function Split(s: string, sep: char): (parts: seq<string>)
    ensures |parts| >= 1
    ensures forall i :: 0 <= i < |parts| ==> sep !in parts[i]
    decreases |s|
  {
    if |s| == 0 then [""]
    else
      var rest := Split(s[1..], sep);
      if s[0] == sep then [""] + rest
      else [[s[0]] + rest[0]] + rest[1..]
  }

  /** `sep.join(parts)` */
  function Join(parts: seq<string>, sep: string): string
  {
    if |parts| == 0 then ""
    else if |parts| == 1 then parts[0]
    else parts[0] + sep + Join(parts[1..], sep)
  }

  /** Joining then splitting on the same separator recovers every line. */
  lemma {:induction false} JoinSplit(s: string, sep: char)
    ensures Join(Split(s, sep), [sep]) == s
    decreases |s|
  {
    if |s| > 0 {
      var rest := Split(s[1..], sep);
      JoinSplit(s[1..], sep);
      if s[0] == sep {
        assert ([""] + rest)[1..] == rest;
        assert [sep] + s[1..] == s;
      } else {
        var parts := [[s[0]] + rest[0]] + rest[1..];
        assert parts[1..] == rest[1..];
        if |rest| > 1 {
          assert Join(rest, [sep]) == rest[0] + [sep] + Join(rest[1..], [sep]);
        }
        assert [s[0]] + s[1..] == s;
      }
    }
  }

  /** A string without the separator splits into itself. */
  lemma {:induction false} SplitNoSeparator(s: string, sep: char)
    requires sep !in s
    ensures Split(s, sep) == [s]
    decreases |s|
  {
    if |s| > 0 {
      assert sep !in s[1..];
      SplitNoSeparator(s[1..], sep);
      assert [s[0]] + s[1..] == s;
    }
  }

  /** Splitting distributes over a separator occurrence. */
  lemma {:induction false} SplitConcat(a: string, b: string, sep: char)
    ensures Split(a + [sep] + b, sep) == Split(a, sep) + Split(b, sep)
    decreases |a|
  {
    var s := a + [sep] + b;
    if |a| == 0 {
      assert s == [sep] + b;
      assert s[1..] == b;
    } else {
      assert s[0] == a[0];
      assert s[1..] == a[1..] + [sep] + b;
      SplitConcat(a[1..], b, sep);
      if a[0] != sep {
        SplitConcatStep(a, b, sep);
      }
    }
  }

  /** The case of `SplitConcat` where `a` starts with an ordinary character. */
  lemma SplitConcatStep(a: string, b: string, sep: char)
    requires |a| > 0 && a[0] != sep
    requires Split(a[1..] + [sep] + b, sep) == Split(a[1..], sep) + Split(b, sep)
    ensures Split(a + [sep] + b, sep) == Split(a, sep) + Split(b, sep)
  {
    var s := a + [sep] + b;
    var tail := Split(a[1..], sep);
    assert s[0] == a[0] && s[1..] == a[1..] + [sep] + b;
    SplitOrdinaryHead(s, sep);
    SplitOrdinaryHead(a, sep);
    ConsOntoAppend([a[0]], tail, Split(b, sep));
  }

  /** Unfolds `Split` once on a string whose first character is not the separator. */
  lemma SplitOrdinaryHead(s: string, sep: char)
    requires |s| > 0 && s[0] != sep
    ensures Split(s, sep) == [[s[0]] + Split(s[1..], sep)[0]] + Split(s[1..], sep)[1..]
  {
  }

  /** Gluing `c` onto the first piece commutes with appending more pieces. */
  lemma ConsOntoAppend(c: string, xs: seq<string>, ys: seq<string>)
    requires |xs| > 0
    ensures [c + (xs + ys)[0]] + (xs + ys)[1..] == ([c + xs[0]] + xs[1..]) + ys
  {
    assert (xs + ys)[1..] == xs[1..] + ys;
  }

  /** Splitting a join of separator-free pieces gives back the pieces. */
  lemma {:induction false} SplitJoin(parts: seq<string>, sep: char)
    requires |parts| >= 1
    requires forall i :: 0 <= i < |parts| ==> sep !in parts[i]
    ensures Split(Join(parts, [sep]), sep) == parts
    decreases |parts|
  {
    SplitNoSeparator(parts[0], sep);
    if |parts| > 1 {
      SplitJoin(parts[1..], sep);
      SplitConcat(parts[0], Join(parts[1..], [sep]), sep);
      assert [parts[0]] + parts[1..] == parts;
    }
  }

  /** A string splits into more than one piece exactly when it holds the separator. */
  lemma {:induction false} SplitSingleIff(s: string, sep: char)
    ensures |Split(s, sep)| == 1 <==> sep !in s
    decreases |s|
  {
    if sep !in s {
      SplitNoSeparator(s, sep);
    } else if |s| > 0 && s[0] != sep {
      assert sep in s[1..];
      SplitSingleIff(s[1..], sep);
    }
  }

  /** `s.lstrip(chars)`: removes the longest prefix made only of characters in `chars`.
      Python treats the argument as a SET of characters, not as a prefix string. */
  function LStrip(s: string, chars: set<char>): (r: string)
    ensures |r| <= |s| && r == s[|s| - |r|..]
    ensures |r| > 0 ==> r[0] !in chars
    ensures forall i :: 0 <= i < |s| - |r| ==> s[i] in chars
    decreases |s|
  {
    if |s| > 0 && s[0] in chars then
      var r := LStrip(s[1..], chars);
      assert s[1..][|s| - 1 - |r|..] == s[|s| - |r|..];
      assert forall i :: 1 <= i < |s| - |r| ==> s[i] == s[1..][i - 1];
      r
    else s
  }

  /** The three facts that pin a left-strip down, stated without computing it. */
  ghost predicate IsLeftStrip(s: string, chars: set<char>, r: string)
  {
    && |r| <= |s| && r == s[|s| - |r|..]
    && (|r| > 0 ==> r[0] !in chars)
    && (forall i :: 0 <= i < |s| - |r| ==> s[i] in chars)
  }

  /** Any string meeting `IsLeftStrip` is the one `LStrip` computes. */
  lemma LStripUnique(s: string, chars: set<char>, r: string)
    requires IsLeftStrip(s, chars, r)
    ensures r == LStrip(s, chars)
  {
  }

  /** `s.rstrip(chars)`: removes the longest suffix made only of characters in `chars`. */
  function RStrip(s: string, chars: set<char>): (r: string)
    ensures |r| <= |s| && r == s[..|r|]
    ensures |r| > 0 ==> r[|r| - 1] !in chars
    ensures forall i :: |r| <= i < |s| ==> s[i] in chars
    decreases |s|
  {
    if |s| > 0 && s[|s| - 1] in chars then RStrip(s[..|s| - 1], chars) else s
  }

  /** The characters Python's `str.isspace` accepts, which argument-less `strip()` removes. */
  const PythonWhitespace: set<char> := {
    '\t', '\n', '\U{B}', '\U{C}', '\r', '\U{1C}', '\U{1D}', '\U{1E}', '\U{1F}', ' ',
    '\U{85}', '\U{A0}', '\U{1680}',
    '\U{2000}', '\U{2001}', '\U{2002}', '\U{2003}', '\U{2004}', '\U{2005}',
    '\U{2006}', '\U{2007}', '\U{2008}', '\U{2009}', '\U{200A}',
    '\U{2028}', '\U{2029}', '\U{202F}', '\U{205F}', '\U{3000}'
  }

  /** `r` is the piece of `s` starting at `i`, and everything of `s` outside it is in `chars`. */
  ghost predicate TrimmedAt(s: string, chars: set<char>, r: string, i: int)
  {
    && 0 <= i <= |s| - |r| && s[i..i + |r|] == r
    && (forall k :: 0 <= k < i ==> s[k] in chars)
    && (forall k :: i + |r| <= k < |s| ==> s[k] in chars)
  }

  /** Cutting a suffix of `s` (whose cut-off prefix is in `chars`) down to a prefix
      (whose cut-off suffix is in `chars`) leaves a trimmed piece of `s`. */
  lemma TrimmedPieces(s: string, chars: set<char>, l: string, r: string)
    requires |l| <= |s| && l == s[|s| - |l|..]
    requires forall k :: 0 <= k < |s| - |l| ==> s[k] in chars
    requires |r| <= |l| && r == l[..|r|]
    requires forall k :: |r| <= k < |l| ==> l[k] in chars
    ensures TrimmedAt(s, chars, r, |s| - |l|)
  {
    var i := |s| - |l|;
    assert s[i..i + |r|] == l[..|r|];
    forall k | i + |r| <= k < |s|
      ensures s[k] in chars
    {
      assert s[k] == l[k - i];
    }
  }

  /** `s.strip(chars)`: a contiguous piece of `s`, everything outside it is in `chars`,
      and (when non-empty) it starts and ends outside `chars`. With `PythonWhitespace`
      this is the argument-less `s.strip()`. */
  function Strip(s: string, chars: set<char>): (r: string)
    ensures |r| <= |s|
    ensures exists i :: TrimmedAt(s, chars, r, i)
    ensures |r| > 0 ==> r[0] !in chars && r[|r| - 1] !in chars
  {
    var l := LStrip(s, chars);
    var r := RStrip(l, chars);
    TrimmedPieces(s, chars, l, r);
    r
  }
}

=== FILE: workflow.dfy ===
/** The workflow graph: get_diff -> analyze -> generate_message -> check_quality, then
    check_quality -> improve_message -> check_quality until the message is accepted or
    the attempt budget is spent, then generate_changelog -> END. Every model call is
    an oracle of the `Environment`. */
module Workflow {
  import opened Wrappers
  import opened Text
  import opened Models
  import opened Analysis
  import opened CommitMessage
  import opened Changelog

  /** `check_quality` force-accepts once `attempts` has reached this. */
  const MaxAttempts: nat := 5

  /** The graph's nodes, plus the run's two ends. */
  datatype Node =
    | GetDiff | Analyze | GenerateMessage | CheckQuality | ImproveMessage | GenerateChangelog
    | End
    | Aborted(failure: Failure)

  /** The routing label `next` that the nodes write. */
  datatype Next = ToGetDiff | ToImproveMessage | ToGenerateChangelog | ToCheckQuality

  datatype Status = Success | Failed | Improved | Final
  datatype Reason = Valid | MaxAttemptsReached

  /** One `message_history` record. */
  datatype HistoryEntry = HistoryEntry(
    attempt: nat, message: string, qualityCheck: Option<bool>, status: Status, reason: Option<Reason>)

  /** `AgentState`, with the node about to run and the changelog file's content. The chat
      log is kept as what the nodes read back from it: the diff text, the latest
      candidate message and the latest verdict. `checks` counts `check_quality` runs. */
  datatype AgentState = AgentState(
    node: Node,
    attempts: nat,
    next: Next,
    diff: string,
    analysis: Option<DiffAnalysis>,
    message: string,
    verdict: Option<bool>,
    finalMessage: Option<string>,
    history: seq<HistoryEntry>,
    checks: nat,
    changelog: string)

  /** Everything outside the workflow: the staged diff (or the git error's text), the
      patched-file records the diff library reads from the message holding it, and the
      model's answers. `verdicts(k)` answers the k-th quality check (counting from 0);
      `rewrites(n)` is the raw reply to the improvement asked for after the n-th rejection. */
  datatype Environment = Environment(
    staged: Result<string, string>,
    patches: seq<PatchedFile>,
    purposes: PurposeOracle,
    summaries: SummaryOracle,
    commits: CommitOracle,
    verdicts: nat -> Option<bool>,
    rewrites: nat -> string)

  const StagedIntro := "Here are the staged changes:\n\n"
  const GitErrorIntro := "Error getting git diff: "

  /** The state `CommitAgent.run` starts from, given the changelog file's content. */
  function Init(changelog: string): (s: AgentState)
    ensures s.node == GetDiff && s.attempts == 0 && s.next == ToGetDiff
    ensures s.analysis.None? && s.finalMessage.None? && s.verdict.None?
    ensures s.history == [] && s.checks == 0 && s.changelog == changelog
  {
    AgentState(GetDiff, 0, ToGetDiff, "", None, "", None, None, [], 0, changelog)
  }

  predicate Terminal(s: AgentState)
  {
    s.node == End || s.node.Aborted?
  }

  function Abort(s: AgentState, f: Failure): AgentState
  {
    s.(node := Aborted(f))
  }

  /** The conditional edge out of `check_quality`. */
  function Route(next: Next): (n: Node)
    ensures n == ImproveMessage <==> next == ToImproveMessage
    ensures n == GenerateChangelog <==> next == ToGenerateChangelog
    ensures n != ImproveMessage && n != GenerateChangelog ==> n == Aborted(UnroutedNext)
  {
    match next
    case ToImproveMessage => ImproveMessage
    case ToGenerateChangelog => GenerateChangelog
    case _ => Aborted(UnroutedNext)
  }

  /** `get_diff`: the message the later nodes read the diff from. A git failure does
      not stop the run; its text takes the diff's place. */
  function GetDiffStep(env: Environment, s: AgentState): (r: AgentState)
    ensures r.node == Analyze
    ensures env.staged.Ok? ==> r.diff == StagedIntro + env.staged.value
    ensures env.staged.Err? ==> r.diff == GitErrorIntro + env.staged.error
    ensures r.(node := s.node, diff := s.diff) == s
  {
    var text := match env.staged
      case Ok(d) => StagedIntro + d
      case Err(e) => GitErrorIntro + e;
    s.(node := Analyze, diff := text)
  }

  /** `analyze`: stores the analysis and moves on, or stops the run on the failure. */
  function AnalyzeStep(env: Environment, s: AgentState): (r: AgentState)
    ensures Analysis.Analyze(s.diff, env.patches, env.purposes, env.summaries).Ok? ==>
      r == s.(node := GenerateMessage,
              analysis := Some(Analysis.Analyze(s.diff, env.patches, env.purposes, env.summaries).value))
    ensures Analysis.Analyze(s.diff, env.patches, env.purposes, env.summaries).Err? ==>
      r == s.(node := Aborted(Analysis.Analyze(s.diff, env.patches, env.purposes, env.summaries).error))
  {
    match Analysis.Analyze(s.diff, env.patches, env.purposes, env.summaries)
    case Err(f) => Abort(s, f)
    case Ok(a) => s.(node := GenerateMessage, analysis := Some(a))
  }

  /** `generate_message`: the rendered message becomes the candidate under check; a
      missing analysis or a failed generation stops the run. */
  function GenerateStep(env: Environment, s: AgentState): (r: AgentState)
    ensures s.analysis.None? ==> r == s.(node := Aborted(MissingAnalysis))
    ensures s.analysis.Some? && CommitMessage.GenerateMessage(s.analysis.value, env.commits).Ok? ==>
      r == s.(node := CheckQuality, message := CommitMessage.GenerateMessage(s.analysis.value, env.commits).value)
    ensures s.analysis.Some? && CommitMessage.GenerateMessage(s.analysis.value, env.commits).Err? ==>
      r == s.(node := Aborted(CommitMessage.GenerateMessage(s.analysis.value, env.commits).error))
  {
    match s.analysis
    case None => Abort(s, MissingAnalysis)
    case Some(a) =>
      match CommitMessage.GenerateMessage(a, env.commits)
      case Err(f) => Abort(s, f)
      case Ok(m) => s.(node := CheckQuality, message := m)
  }

  /** The body of `check_quality` once the verdict is known. It records the verdict;
      on acceptance (a valid verdict, or the budget spent) it fixes the final message,
      adds a `final` record and leaves `attempts` alone; otherwise it counts one more
      attempt and asks for an improvement. */
  function Judge(s: AgentState, valid: bool): (r: AgentState)
    ensures r.verdict == Some(valid)
    ensures var accept := valid || s.attempts >= MaxAttempts;
      && (accept ==> r.attempts == s.attempts && r.next == ToGenerateChangelog
                     && r.finalMessage == Some(s.message))
      && (!accept ==> r.attempts == s.attempts + 1 && r.next == ToImproveMessage
                      && r.finalMessage == s.finalMessage)
    ensures r.history
      == s.history
       + [HistoryEntry(s.attempts, s.message, Some(valid), if valid then Success else Failed, None)]
       + (if valid || s.attempts >= MaxAttempts
          then [HistoryEntry(s.attempts, s.message, None, Final,
                             Some(if valid then Valid else MaxAttemptsReached))]
          else [])
    ensures r.checks == s.checks && r.message == s.message
  {
    var checked := HistoryEntry(s.attempts, s.message, Some(valid), if valid then Success else Failed, None);
    if valid || s.attempts >= MaxAttempts then
      var reason := if valid then Valid else MaxAttemptsReached;
      var final := HistoryEntry(s.attempts, s.message, None, Final, Some(reason));
      s.(verdict := Some(valid), finalMessage := Some(s.message), next := ToGenerateChangelog,
         history := s.history + [checked, final])
    else
      s.(verdict := Some(valid), attempts := s.attempts + 1, next := ToImproveMessage,
         history := s.history + [checked])
  }

  /** `check_quality`: the verdict is parsed before anything is recorded, so an
      unreadable verdict stops the run with the ledger as it was. */
  function CheckStep(env: Environment, s: AgentState): (r: AgentState)
    ensures r.checks == s.checks + 1
    ensures r.message == s.message && r.analysis == s.analysis && r.diff == s.diff && r.changelog == s.changelog
    ensures env.verdicts(s.checks).Some? ==> r.verdict == env.verdicts(s.checks)
    ensures env.verdicts(s.checks).None? ==>
      r.node == Aborted(MalformedVerdict) && r.history == s.history && r.attempts == s.attempts
    ensures env.verdicts(s.checks).Some? ==>
      var valid := env.verdicts(s.checks).value;
      && r.history == Judge(s, valid).history
      && (valid || s.attempts >= MaxAttempts ==>
            r.node == GenerateChangelog && r.finalMessage == Some(s.message) && r.attempts == s.attempts)
      && (!(valid || s.attempts >= MaxAttempts) ==>
            r.node == ImproveMessage && r.attempts == s.attempts + 1)
  {
    var counted := s.(checks := s.checks + 1);
    match env.verdicts(s.checks)
    case None => Abort(counted, MalformedVerdict)
    case Some(valid) =>
      var judged := Judge(counted, valid);
      judged.(node := Route(judged.next))
  }

  /** `improve_message`: records the rejected message and its verdict, then the
      stripped rewrite; `attempts` is left as it is. */
  function ImproveStep(env: Environment, s: AgentState): (r: AgentState)
    ensures r.attempts == s.attempts && r.next == ToCheckQuality && r.node == CheckQuality
    ensures r.history == s.history + [HistoryEntry(s.attempts, s.message, s.verdict, Failed, None),
                                      HistoryEntry(s.attempts, r.message, None, Improved, None)]
    ensures r.message == Strip(env.rewrites(s.attempts), PythonWhitespace)
    ensures r.analysis == s.analysis && r.finalMessage == s.finalMessage && r.checks == s.checks
  {
    var rewritten := Strip(env.rewrites(s.attempts), PythonWhitespace);
    var failed := HistoryEntry(s.attempts, s.message, s.verdict, Failed, None);
    var improved := HistoryEntry(s.attempts, rewritten, None, Improved, None);
    s.(history := s.history + [failed, improved], message := rewritten,
       next := ToCheckQuality, node := CheckQuality)
  }

  /** The final message as the changelog f-string shows it: a missing one would be
      rendered as the text `None`. */
  function FinalText(finalMessage: Option<string>): string
  {
    match finalMessage case Some(m) => m case None => "None"
  }

  /** `generate_changelog`: appends the entry for the final message after the file's
      old content; reading a missing analysis raises, which stops the run. */
  function ChangelogStep(s: AgentState): (r: AgentState)
    ensures r.history == s.history && r.attempts == s.attempts && r.finalMessage == s.finalMessage
    ensures s.analysis.None? ==> r.node == Aborted(MissingAnalysis) && r.changelog == s.changelog
    ensures s.analysis.Some? ==>
      && r.node == End
      && s.changelog <= r.changelog
      && r.changelog[|s.changelog|..] == "\n" + Entry(FinalText(s.finalMessage), s.analysis.value) + "\n"
  {
    match s.analysis
    case None => Abort(s, MissingAnalysis)
    case Some(a) => s.(node := End, changelog := Append(s.changelog, Entry(FinalText(s.finalMessage), a)))
  }

  /** One node of the graph. The ledger only grows, and the changelog changes only in
      the changelog step, and then only by growing. */
  function Step(env: Environment, s: AgentState): (r: AgentState)
    ensures s.history <= r.history
    ensures s.changelog <= r.changelog
    ensures s.node != GenerateChangelog ==> r.changelog == s.changelog
    ensures Terminal(s) ==> r == s
    ensures r.checks == s.checks + (if s.node == CheckQuality then 1 else 0)
  {
    match s.node
    case GetDiff => GetDiffStep(env, s)
    case Analyze => AnalyzeStep(env, s)
    case GenerateMessage => GenerateStep(env, s)
    case CheckQuality => CheckStep(env, s)
    case ImproveMessage => ImproveStep(env, s)
    case GenerateChangelog => ChangelogStep(s)
    case End => s
    case Aborted(_) => s
  }

  /** The message `get_diff` leaves tells the two outcomes apart: it opens with the
      staged-changes introduction exactly when git answered, and then the diff follows
      it unchanged. */
  lemma DiffMessageShowsOutcome(env: Environment, s: AgentState)
    ensures StartsWith(GetDiffStep(env, s).diff, StagedIntro) <==> env.staged.Ok?
    ensures env.staged.Ok? ==> GetDiffStep(env, s).diff[|StagedIntro|..] == env.staged.value
  {
    var text := GetDiffStep(env, s).diff;
    if env.staged.Err? {
      assert text[0] == 'E' && StagedIntro[0] == 'H';
    } else {
      assert text[..|StagedIntro|] == StagedIntro;
    }
  }

  // ---------------------------------------------------------------------------
  // What holds at every node a run reaches

  /** The last ledger record is the `final` one for the accepted message, and a forced
      acceptance only happens with the budget spent. */
  predicate AcceptedLast(s: AgentState)
  {
    && s.finalMessage.Some?
    && |s.history| > 0
    && var e := s.history[|s.history| - 1];
      && e.status == Final
      && e.message == s.finalMessage.value
      && (e.reason == Some(MaxAttemptsReached) ==> s.attempts == MaxAttempts)
  }

  ghost predicate Inv(s: AgentState)
  {
    && s.attempts <= MaxAttempts
    && (s.finalMessage.Some? ==> s.node == GenerateChangelog || s.node == End)
    && match s.node
       case GetDiff => s.attempts == 0 && s.checks == 0 && s.history == []
       case Analyze => s.attempts == 0 && s.checks == 0 && s.history == []
       case GenerateMessage => s.attempts == 0 && s.checks == 0 && s.history == [] && s.analysis.Some?
       case CheckQuality =>
         s.checks == s.attempts && |s.history| == 3 * s.attempts && s.analysis.Some?
       case ImproveMessage =>
         && 1 <= s.attempts && s.checks == s.attempts && |s.history| == 3 * s.attempts - 2
         && s.analysis.Some? && s.verdict == Some(false)
       case GenerateChangelog =>
         s.checks == s.attempts + 1 && |s.history| == 3 * s.attempts + 2 && s.analysis.Some? && AcceptedLast(s)
       case End =>
         s.checks == s.attempts + 1 && |s.history| == 3 * s.attempts + 2 && s.analysis.Some? && AcceptedLast(s)
       case Aborted(_) => s.checks <= s.attempts + 1
  }

  lemma InitInv(changelog: string)
    ensures Inv(Init(changelog))
  {
  }

  lemma CheckPreservesInv(env: Environment, s: AgentState)
    requires Inv(s) && s.node == CheckQuality
    ensures Inv(CheckStep(env, s))
  {
    var counted := s.(checks := s.checks + 1);
    if env.verdicts(s.checks).Some? {
      var judged := Judge(counted, env.verdicts(s.checks).value);
      assert judged.history[|judged.history| - 1].message == s.message;
    }
  }

  lemma StepPreservesInv(env: Environment, s: AgentState)
    requires Inv(s)
    ensures Inv(Step(env, s))
  {
    match s.node
    case GetDiff =>
    case Analyze => AnalyzePreservesInv(env, s);
    case GenerateMessage => GeneratePreservesInv(env, s);
    case CheckQuality => CheckPreservesInv(env, s);
    case ImproveMessage => ImprovePreservesInv(env, s);
    case GenerateChangelog => ChangelogPreservesInv(s);
    case End =>
    case Aborted(_) =>
  }

  lemma AnalyzePreservesInv(env: Environment, s: AgentState)
    requires Inv(s) && s.node == Analyze
    ensures Inv(AnalyzeStep(env, s))
  {
  }

  lemma GeneratePreservesInv(env: Environment, s: AgentState)
    requires Inv(s) && s.node == GenerateMessage
    ensures Inv(GenerateStep(env, s))
  {
  }

  lemma ImprovePreservesInv(env: Environment, s: AgentState)
    requires Inv(s) && s.node == ImproveMessage
    ensures Inv(ImproveStep(env, s))
  {
  }

  lemma ChangelogPreservesInv(s: AgentState)
    requires Inv(s) && s.node == GenerateChangelog
    ensures Inv(ChangelogStep(s))
  {
  }

  /** A measure every step of a non-terminal node strictly lowers. */
  function Rank(s: AgentState): nat
    requires s.attempts <= MaxAttempts
  {
    match s.node
    case GetDiff => 16
    case Analyze => 15
    case GenerateMessage => 14
    case CheckQuality => 2 * (MaxAttempts - s.attempts) + 3
    case ImproveMessage => 2 * (MaxAttempts - s.attempts) + 4
    case GenerateChangelog => 1
    case End => 0
    case Aborted(_) => 0
  }

  lemma StepLowersRank(env: Environment, s: AgentState)
    requires Inv(s) && !Terminal(s)
    ensures Inv(Step(env, s)) && Rank(Step(env, s)) < Rank(s)
  {
    StepPreservesInv(env, s);
  }

  /** The whole run from `s`: it always ends, in `End` or `Aborted`, within `Rank(s)`
      steps (16 from the start), with the attempt budget respected. */
  function Run(env: Environment, s: AgentState): (r: AgentState)
    requires Inv(s)
    ensures Terminal(r) && Inv(r)
    ensures r.attempts <= MaxAttempts && r.checks <= MaxAttempts + 1
    ensures s.history <= r.history && s.changelog <= r.changelog
    decreases Rank(s)
  {
    if Terminal(s) then s
    else
      StepLowersRank(env, s);
      Run(env, Step(env, s))
  }

  /** The number of `check_quality` runs from `s` to the end of the run. */
  function CheckVisits(env: Environment, s: AgentState): (n: nat)
    requires Inv(s)
    ensures s.checks + n == Run(env, s).checks
    decreases Rank(s)
  {
    if Terminal(s) then 0
    else
      StepLowersRank(env, s);
      (if s.node == CheckQuality then 1 else 0) + CheckVisits(env, Step(env, s))
  }

  // ---------------------------------------------------------------------------
  // Properties of the loop

  /** From the start, `check_quality` runs at most six times and `attempts` ends at
      most five. */
  lemma QualityLoopBounded(env: Environment, changelog: string)
    ensures CheckVisits(env, Init(changelog)) <= MaxAttempts + 1
    ensures Run(env, Init(changelog)).attempts <= MaxAttempts
  {
    InitInv(changelog);
  }

  /** With the budget spent, `check_quality` accepts whatever the verdict. */
  lemma ForcedAcceptance(env: Environment, s: AgentState)
    requires s.node == CheckQuality && s.attempts >= MaxAttempts
    requires env.verdicts(s.checks).Some?
    ensures Step(env, s).node == GenerateChangelog
    ensures Step(env, s).finalMessage == Some(s.message)
    ensures Step(env, s).attempts == s.attempts
  {
  }

  /** A rejection with budget left leads to `improve_message` with one more attempt. */
  lemma RejectionRetries(env: Environment, s: AgentState)
    requires s.node == CheckQuality && s.attempts < MaxAttempts
    requires env.verdicts(s.checks) == Some(false)
    ensures Step(env, s).node == ImproveMessage
    ensures Step(env, s).attempts == s.attempts + 1
    ensures Step(env, s).finalMessage == s.finalMessage
  {
  }

  /** What a finished run did to the changelog. */
  ghost predicate ChangelogWritten(s: AgentState, original: string)
  {
    if s.node == End then
      && s.analysis.Some? && s.finalMessage.Some?
      && s.changelog == Append(original, Entry(s.finalMessage.value, s.analysis.value))
    else s.changelog == original
  }

  lemma StepWritesChangelogOnce(env: Environment, s: AgentState, original: string)
    requires Inv(s) && ChangelogWritten(s, original)
    ensures ChangelogWritten(Step(env, s), original)
  {
  }

  lemma {:induction false} RunWritesChangelogOnce(env: Environment, s: AgentState, original: string)
    requires Inv(s) && ChangelogWritten(s, original)
    ensures ChangelogWritten(Run(env, s), original)
    decreases Rank(s)
  {
    if !Terminal(s) {
      StepLowersRank(env, s);
      StepWritesChangelogOnce(env, s, original);
      RunWritesChangelogOnce(env, Step(env, s), original);
    }
  }

  /** A run either appends exactly one entry, for the accepted message, after the old
      content, or (when it stops on a failure) leaves the changelog untouched. */
  lemma RunChangelog(env: Environment, changelog: string)
    ensures var r := Run(env, Init(changelog));
      && (r.node == End ==> r.changelog == Append(changelog, Entry(r.finalMessage.value, r.analysis.value)))
      && (r.node.Aborted? ==> r.changelog == changelog)
  {
    InitInv(changelog);
    RunWritesChangelogOnce(env, Init(changelog), changelog);
  }

  /** The model answers every structured request in the expected shape. */
  ghost predicate WellFormedReplies(env: Environment)
  {
    && (forall files :: env.summaries(files).Some?
          && ParseCommitType(env.summaries(files).value.changeType).Some?)
    && (forall p :: env.commits(p).Some? && ParseCommitType(env.commits(p).value.commitType).Some?)
    && (forall k :: env.verdicts(k).Some?)
  }

  /** With well-formed replies a run never stops early: it reaches the changelog. */
  lemma {:induction false} WellFormedRunsFinish(env: Environment, s: AgentState)
    requires WellFormedReplies(env) && Inv(s) && !s.node.Aborted?
    ensures Run(env, s).node == End
    decreases Rank(s)
  {
    if !Terminal(s) {
      StepLowersRank(env, s);
      assert !Step(env, s).node.Aborted? by {
        if s.node == Analyze {
          var files := AnalyzeFiles(s.diff, DiffParser.ParseGitDiff(env.patches), env.purposes);
          assert env.summaries(files).Some?;
        } else if s.node == GenerateMessage {
          assert env.commits(PromptFor(s.analysis.value)).Some?;
        } else if s.node == CheckQuality {
          assert env.verdicts(s.checks).Some?;
        }
      }
      WellFormedRunsFinish(env, Step(env, s));
    }
  }
}

=== FILE: wrappers.dfy ===
/** Optional values and success-or-failure results used throughout the model. */
module Wrappers {

  /** A value that may be absent (Python's `Optional[...]` / `None`). */
  datatype Option<+T> = None | Some(value: T)

  /** Either a computed value or the failure that ended the computation. */
  datatype Result<+T, +E> = Ok(value: T) | Err(error: E)
}
